=== FILE: README.md ===
# Jolly Roger: call rooms, puzzle lists and user records, in Dafny

Jolly Roger is a puzzle-hunt coordination web application. This project models the parts of it that hold real logic and states what they promise:

- **Call-room bookkeeping.** A voice call in Jolly Roger has one Room document, routed to one media server. Each browser tab in the call has one Peer document. The server keeps these in a shared store:
  - `mediasoup:join` creates the Room and the Peer, and its stop handler removes them;
  - a periodic clean-up removes Peers created on dead servers and re-homes Rooms that were routed to them;
  - the `mediasoup:transports` and `mediasoup:producer` subscriptions guard and record negotiation requests.

  The store is an immutable value. Each locked body is a pure function from store to store. The Room collection carries a unique index on `call`.
- **The puzzle list page.** This covers the search-box matcher, the "hide solved" filter and its fallback, the unlock ordering, how the search string is written into the URL query, and the add-puzzle handler.
- **The hunter list.** This covers the profile matcher and the name shown for each profile.
- **The related-puzzle ordering.** This is the ordering of puzzles within a puzzle group.
- **The puzzle page.** This covers finding the puzzle by id, chat sender headers, the correct answers shown, and the guess dialog. The dialog asks for confirmation before a repeated guess or a guess on a solved puzzle.
- **The add/edit puzzle dialog.** This covers its state, change handlers and payload, and the current values shown in each field.
- **The `User` schema.** This is the username pattern plus per-field validation.
- **The `GET /users/:email` resource.** This covers the lookup by Google account or e-mail, and rendering with an "active in the last year" flag.
- **Migration 39.** It moves the fields of the legacy `profile` sub-document to the top level of each user.

Everything is written as pure functions over immutable datatypes. Collections are sequences in insertion order. A database `findOne` is the first match (`Seqs.FindFirst`). Fresh document ids come from a counter in the store. The module layout follows the source files:

- `call_store`: documents, the store, and the unique Room insert;
- `call_room`: join and leave;
- `call_gc`: the clean-up pass;
- `negotiation`: transports and producers;
- `hunt_data`: tags and puzzles;
- `puzzle_search`: the puzzle list page;
- `profile_search`: the hunter list;
- `related_sort`: the related-puzzle ordering;
- `puzzle_page`: the puzzle page;
- `puzzle_form`: the add/edit puzzle dialog;
- `users`: the `User` schema;
- `discord`: the Discord account record the schema refers to;
- `users_resource`: the REST resource;
- `migration39`: the migration.

The generic helpers are in `common`, `seqs`, `text` and `sorting`.

The following are parameters:

- The caller's context: the user id, the `disable.webrtc` flag, the hunt-membership check, the server's own id and the development flag.
- The validators the user schema borrows: non-empty string, id string, foreign key, e-mail and Discord account.
- `computeSolvedness` and `puzzleInterestingness`.
- The clock.

## Model

| member | source | states |
|---|---|---|
| CallStore.InsertRoom | imports/lib/models/mediasoup/Rooms.ts:17 | The Room insert fails with a duplicate-key error exactly when a Room for the call already exists. On success the new Room is present and every Room is an old one or is for that call. |
| CallStore.InsertRoomValid | imports/lib/models/mediasoup/Rooms.ts:10-17 | An accepted insert keeps the store valid (one Room per call, one Peer per tab, fresh ids), and the call then has exactly one Room. |
| CallStore.ReinsertExisting | imports/server/mediasoup-api.ts:43-50 | When a Room for the call exists, an insert wrapped in `ignoringDuplicateKeyErrors` leaves the store exactly as it was. |
| CallStore.ReinsertTwice | imports/server/mediasoup-api.ts:43-50 | Running the tolerant reinsert twice gives the same store as running it once. |
| CallStore.FilterKeepsUnique | imports/lib/models/mediasoup/Rooms.ts:17 | Removing documents never breaks Room-per-call or Peer-per-tab uniqueness. |
| CallRoom.NewPeer | imports/server/mediasoup-api.ts:168-176 | The inserted Peer is muted exactly when its state is not active, and a deafened Peer is always muted. |
| CallRoom.Join | imports/server/mediasoup-api.ts:105-115 | Checks run in order: not logged in gives 401, not a hunt member gives 403, WebRTC disabled gives 403. The join goes ahead exactly when all three pass. |
| CallRoom.EnsureRoomFacts | imports/server/mediasoup-api.ts:119-125 | Afterwards the call has exactly one Room. A Room is inserted, through an insert the unique index accepts, only when the lookup found none. Otherwise the store is unchanged. |
| CallRoom.RemoveStaleFacts | imports/server/mediasoup-api.ts:140-146 | After removing the stale Peer, no Peer of that hunt, call and tab remains. Peers of other tabs are untouched and the store stays valid. |
| CallRoom.AddPeerFacts | imports/server/mediasoup-api.ts:168-176 | Inserting a Peer with a fresh id, for a tab with no Peer, keeps the store valid and leaves exactly one Peer for the tab. |
| CallRoom.JoinRoom | imports/server/mediasoup-api.ts:118-125 | After a join the call has exactly one Room. A new Room, routed to this server, is added only if the call had none. Only the Rooms, the Peers and the id counter change. |
| CallRoom.JoinPeer | imports/server/mediasoup-api.ts:140-176 | After a join there is exactly one Peer for the tab: the new one, created on this server by the caller. Peers of other tabs are unchanged. A rejoin keeps the call's head count; a fresh join adds one. |
| CallRoom.JoinStages | imports/server/mediasoup-api.ts:118-176 | A join is the insert of a Peer with a fresh id into a valid store where the tab has no Peer. |
| CallRoom.JoinInitialState | imports/server/mediasoup-api.ts:148-176 | A reconnecting tab keeps its old state, with deafened taking precedence over muted over active. A fresh joiner starts muted exactly when its arrival brings the call's head count to the crowd size. The mute and deafen flags follow the state. |
| CallRoom.JoinValid | imports/server/mediasoup-api.ts:118-184 | A join keeps the store valid. |
| CallRoom.LeaveEffect | imports/server/mediasoup-api.ts:186-195 | Leaving removes exactly the Peer with that id, and at most one Peer has it. The call's Room is removed exactly when no Peer of the call remains. Rooms of other calls are untouched. Nothing else in the store changes. |
| CallRoom.LeaveValid | imports/server/mediasoup-api.ts:186-195 | Leaving keeps the store valid. |
| CallRoom.JoinThenLeave | imports/server/mediasoup-api.ts:118-195 | When the first tab of an empty call joins and then leaves, the Rooms and Peers are as they were before. |
| CallGc.RehomedSound | imports/server/mediasoup-api.ts:41-50 | Every Room the clean-up inserts carries the hunt and call of a Room it removed. |
| CallGc.RehomedComplete | imports/server/mediasoup-api.ts:41-50 | Every removed Room whose call still has a Peer gets a replacement with the same hunt and call. |
| CallGc.RehomedFacts | imports/server/mediasoup-api.ts:41-50 | Each replacement Room is routed to this server, has a fresh id, and has as its creator the creator of its call's first remaining Peer. |
| CallGc.GcRoomValid | imports/server/mediasoup-api.ts:35-52 | The locked body for one Room keeps the store valid, whatever Room it is given. |
| CallGc.GcRoomStep | imports/server/mediasoup-api.ts:35-52 | On a store where the Room is the only one for its call, the locked body removes exactly that Room and appends its replacement, if any. |
| CallGc.GcRoomsValid | imports/server/mediasoup-api.ts:33-53 | The sequential fold over the fetched Rooms keeps the store valid. |
| CallGc.GcRoomsSpec | imports/server/mediasoup-api.ts:33-53 | The fold equals the reference: the fetched Rooms are gone and their replacements are appended in fetch order. |
| CallGc.GcPassSpec | imports/server/mediasoup-api.ts:26-54 | One pass equals the reference definition. Peers on dead servers and Rooms routed to dead servers are removed. Replacements for the removed Rooms are appended, computed against the surviving Peers. |
| CallGc.GcPassValid | imports/server/mediasoup-api.ts:26-54 | A pass keeps the store valid. |
| CallGc.GcPassClears | imports/server/mediasoup-api.ts:26-54 | After a pass on a live server, no Peer or Room on a dead server is left. All Peers and Rooms on live servers are kept. Every other Room is a fresh one routed to this server. |
| CallGc.GcPassRehomes | imports/server/mediasoup-api.ts:33-52 | A Room routed to a dead server is replaced exactly when its call keeps a Peer. Otherwise no Room for that call remains. |
| CallGc.GcPassIdempotent | imports/server/mediasoup-api.ts:26-54 | A second pass for the same dead servers changes nothing. |
| Negotiation.RequestTransport | imports/server/mediasoup-api.ts:204-236 | Errors come in the source's order, each stated with the condition that selects it: 401 with no user, 403 with WebRTC off, 404 with no Peer of that id, 404 with no Router for the Peer's call, and 403 when the Peer is another user's. The subscription proceeds exactly when every check passes. On success one TransportRequest is added under a fresh id. It carries the Peer's call, the capabilities, and the server of the first Router found for that call. |
| Negotiation.StopTransport | imports/server/mediasoup-api.ts:238-243 | The stop handler removes exactly the request and the connect requests, connect acks and consumer acks that refer to it. Nothing else changes. |
| Negotiation.RequestProducer | imports/server/mediasoup-api.ts:255-290 | Errors come in the source's order, each stated with the condition that selects it: 401, WebRTC 403, 404 with no Transport of that id, and 403 when the Transport is another user's. On success one ProducerClient is added, and it copies the Transport's server, call, peer and request. |
| Negotiation.StopProducer | imports/server/mediasoup-api.ts:292-294 | The stop handler removes exactly that ProducerClient and changes nothing else. |
| Negotiation.TransportThenStop | imports/server/mediasoup-api.ts:230-243 | Stopping right after subscribing restores the store, except for the id counter. |
| Negotiation.ProducerThenStop | imports/server/mediasoup-api.ts:279-294 | Stopping right after subscribing restores the store, except for the id counter. |
| Negotiation.NegotiationValid | imports/server/mediasoup-api.ts:204-294 | Both subscriptions and both stop handlers keep the store valid. |
| HuntData.NameIndex | imports/client/components/PuzzleModalForm.jsx:116-118 | The id-to-name map built from the tag list has as keys exactly the ids of the tags. |
| HuntData.NameIndexLast | imports/client/components/PuzzleModalForm.jsx:118 | Later assignments win: an id maps to the name of the last tag carrying it. |
| HuntData.NameIndexValue | imports/client/components/PuzzleModalForm.jsx:118 | Every name in the map is the name of a tag with that id. |
| PuzzleSearch.SearchMatches | imports/client/components/PuzzleListPage.tsx:208-253 | The search keeps, in order, exactly the puzzles that every lowercased non-empty key matches. A key matches when it is a prefix of a title word, a substring of an answer, or a substring of a tag name. |
| PuzzleSearch.SearchSpacesOnly | imports/client/components/PuzzleListPage.tsx:243-252 | An empty or all-space search string keeps every puzzle, in order. |
| PuzzleSearch.SearchCaseInsensitive | imports/client/components/PuzzleListPage.tsx:213-251 | Two search strings that agree after lowercasing keep the same puzzles. |
| PuzzleSearch.MatcherCaseInsensitive | imports/client/components/PuzzleListPage.tsx:214-239 | Puzzles whose titles and answers agree after lowercasing match the same keys. |
| PuzzleSearch.SolvedFilter | imports/client/components/PuzzleListPage.tsx:255-266 | With solved puzzles shown, the list is unchanged. Otherwise exactly the puzzles not computed as solved are kept, in order. |
| PuzzleSearch.RetainedFacts | imports/client/components/PuzzleListPage.tsx:413-420 | The fallback fires exactly when solved puzzles are hidden, the search matches something and every match is solved, and it then shows every match in order. Otherwise a puzzle is shown exactly when it matches and passes the solved filter. The list is an ordered sub-list of the matches, non-empty exactly when something matches. |
| PuzzleSearch.UnlockOrderFacts | imports/client/components/PuzzleListPage.tsx:338-339 | The unlock view is sorted by creation time and holds exactly the puzzles whose id is retained. Puzzles created at the same time keep their order in the full list, as the stable sort leaves them. |
| PuzzleSearch.UnlockOrderTies | imports/client/components/PuzzleListPage.tsx:338-339 | For each creation time, the unlock view lists the retained puzzles created then in their order in the full list. |
| PuzzleSearch.SetFirstFacts | imports/client/components/PuzzleListPage.tsx:196 | Setting an existing query parameter makes it read back as the new value and leaves every other parameter as it was. |
| PuzzleSearch.SetSearchStringFacts | imports/client/components/PuzzleListPage.tsx:193-202 | After the search string is set, `q` reads back as the value, or is absent for the empty string. Every other query parameter is unchanged. |
| PuzzleSearch.OnAdd | imports/client/components/PuzzleListPage.tsx:180-191 | A payload whose document type is not truthy is refused with "No docType provided". Otherwise `createPuzzle` gets the payload's fields and its document type. |
| ProfileSearch.IsInteresting | imports/client/components/ProfileList.tsx:275-291 | The loop accepts a profile exactly when every non-empty lowercased key matches one of these: display name, e-mail, phone, Discord tag or a role. |
| ProfileSearch.MatchingProfiles | imports/client/components/ProfileList.tsx:351 | The hunter list keeps, in order, exactly the profiles the matcher accepts. |
| ProfileSearch.ProfilesSpacesOnly | imports/client/components/ProfileList.tsx:276-277 | An empty or all-space search string keeps every profile. |
| ProfileSearch.AbsentFieldsNeverMatch | imports/client/components/ProfileList.tsx:281-285 | A profile without phone, Discord account or roles matches only through its display name or e-mail. |
| ProfileSearch.ProfilesCaseInsensitive | imports/client/components/ProfileList.tsx:276-277 | Two search strings that agree after lowercasing keep the same profiles. |
| ProfileSearch.ShownName | imports/client/components/ProfileList.tsx:389 | The name shown is never empty, and it is the display name whenever that is non-empty. |
| RelatedSort.GroupOf | imports/client/components/RelatedPuzzleList.tsx:13-16 | A group exists exactly when the shared tag's name starts with `group:`. The group is the rest of the name. |
| RelatedSort.SortWithinGroup | imports/client/components/RelatedPuzzleList.tsx:17-28 | The result is a permutation of the puzzles, ordered by interestingness and then by creation time. The sort is stable, as `Array.prototype.sort` is: puzzles with equal interestingness and creation time keep their input order. |
| Sorting.SortByStable | imports/client/components/RelatedPuzzleList.tsx:17-28 | For every key, the elements with that key come out of the sort in their input order. |
| RelatedSort.SortWithinGroupStable | imports/client/components/RelatedPuzzleList.tsx:17-28 | A list already in that order comes back unchanged. |
| PuzzlePage.FindPuzzleById | imports/client/components/PuzzlePage.tsx:902-911 | Nothing is found exactly when no puzzle has the id. Otherwise the result is the first puzzle with it. |
| PuzzlePage.SenderDisplayName | imports/client/components/PuzzlePage.tsx:197-208 | A system message (no sender) is shown as `jolly-roger`. Otherwise a name is shown exactly when the sender has an entry in the name map, and it is that entry. |
| PuzzlePage.HeaderOf | imports/client/components/PuzzlePage.tsx:198-202 | A message is read under the nearest message at or before it that shows its sender. |
| PuzzlePage.HeaderAttribution | imports/client/components/PuzzlePage.tsx:198-202 | The header a message is read under names the message's own sender. Every message from the header on came from that sender, within a minute of the one before it. |
| PuzzlePage.FirstMessageHeader | imports/client/components/PuzzlePage.tsx:198-202 | The first message always shows its sender. |
| PuzzlePage.CorrectGuesses | imports/client/components/PuzzlePage.tsx:447 | The answers shown are, in order, exactly the guesses marked correct. |
| PuzzlePage.FirstSubmitFromNewDialog | imports/client/components/PuzzlePage.tsx:592-636 | In a freshly opened guess dialog, after typing a guess, the first submit asks for confirmation and sends nothing exactly when the guess repeats an earlier one or the puzzle is solved. Otherwise it sends the uppercased guess with the initial direction 0 and confidence 50. |
| PuzzlePage.OnGuessInputChange | imports/client/components/PuzzlePage.tsx:604-609 | Typing stores the uppercased text and drops any pending confirmation. Nothing else changes. |
| PuzzlePage.OnSubmitGuess | imports/client/components/PuzzlePage.tsx:619-653 | A repeated guess, or any guess on a solved puzzle, first asks for confirmation and sends nothing. Once confirmation is armed, or when neither applies, the guess is sent with its direction and confidence. |
| PuzzlePage.OnGuessResult | imports/client/components/PuzzlePage.tsx:637-650 | A failure is shown with its message. Either way the confirmation is cleared. Nothing else changes: the guess text, direction, confidence and confirmation message carry over. |
| PuzzlePage.ConfirmThenSend | imports/client/components/PuzzlePage.tsx:619-636 | Submitting twice without editing sends the guess on the second try. |
| PuzzlePage.EditRearmsConfirmation | imports/client/components/PuzzlePage.tsx:604-630 | Editing after a confirmation re-arms the check: a repeated or solved-puzzle guess asks again. |
| PuzzlePage.ConfirmationNamesSolved | imports/client/components/PuzzlePage.tsx:621-625 | The warning names the solved puzzle when it is solved. |
| PuzzlePage.ConfirmationOpensWithSolved | imports/client/components/PuzzlePage.tsx:621-625 | The warning opens with the solved-puzzle sentence exactly when the puzzle is solved. |
| PuzzlePage.ConfirmationNamesRepeat | imports/client/components/PuzzlePage.tsx:620-625 | The warning names the repeated answer when the guess was made before. |
| PuzzleForm.TagNamesForIds | imports/client/components/PuzzleModalForm.jsx:116-120 | There is one entry per id. An entry is present exactly when some tag has that id. |
| PuzzleForm.TagNamesForIdsNames | imports/client/components/PuzzleModalForm.jsx:116-120 | Each name found belongs to a tag with that id. An id carried by a single tag gives that tag's name. |
| PuzzleForm.InitialState | imports/client/components/PuzzleModalForm.jsx:29-51 | The dialog starts idle, with no error and no field marked changed. An edit dialog starts from the puzzle's title, url and tag names, with no document type. A new-puzzle dialog starts empty with document type `spreadsheet`. |
| PuzzleForm.OnEdit | imports/client/components/PuzzleModalForm.jsx:59-84 | Each change handler sets its own field. The title, url and tags handlers also mark that field as changed. Nothing else changes. |
| PuzzleForm.ApplyEditsKeeps | imports/client/components/PuzzleModalForm.jsx:59-84 | Edits never touch the submit state or the error. Only a document-type edit touches the document type. |
| PuzzleForm.CurrentTitle | imports/client/components/PuzzleModalForm.jsx:134-140 | The title box shows the puzzle's title until it is edited, and the state's title afterwards or in a new-puzzle dialog. |
| PuzzleForm.CurrentUrl | imports/client/components/PuzzleModalForm.jsx:142-148 | The url box shows the puzzle's url until it is edited, and the state's url afterwards. |
| PuzzleForm.CurrentTags | imports/client/components/PuzzleModalForm.jsx:150-156 | The tag box shows the puzzle's tag names until it is edited, and the state's tags afterwards. |
| PuzzleForm.ShownIsSubmitted | imports/client/components/PuzzleModalForm.jsx:86-156 | In an edit dialog that still renders the puzzle it was built from, after any edits, the boxes show exactly the title, url and tags that a submit sends. |
| PuzzleForm.ShownIsSubmittedLive | imports/client/components/PuzzleModalForm.jsx:86-156 | The page keeps the dialog mounted while the puzzle changes elsewhere (`imports/client/components/PuzzlePage.tsx`, the `key` is the puzzle id). A box shows what a submit sends exactly when the user edited that field or the live value still equals the one the dialog was built from. |
| PuzzleForm.StaleTitleSent | imports/client/components/PuzzleModalForm.jsx:86-96 | After a rename elsewhere, editing only the url shows the new title but sends the old one, so the save reverts the rename. |
| PuzzleForm.ShownIsSubmittedFrom | imports/client/components/PuzzleModalForm.jsx:59-156 | Edits preserve the invariant that every field not marked changed still holds the value of the puzzle the dialog was built from. |
| PuzzleForm.OnFormSubmit | imports/client/components/PuzzleModalForm.jsx:86-96 | The dialog goes to submitting. The payload carries the hunt, title, url and tags, and carries a document type exactly when the state's is truthy. |
| PuzzleForm.OnSubmitResult | imports/client/components/PuzzleModalForm.jsx:97-113 | An error is shown and the dialog stays open. Success returns to idle, clears the error and the changed flags, and fires the callback. The callback fires exactly on success. |
| PuzzleSearch.NewFormAccepted | imports/client/components/PuzzleModalForm.jsx:44-96 | A new-puzzle dialog, whatever is typed into it, produces a payload that `onAdd` accepts. |
| PuzzleSearch.EditFormHasNoDocType | imports/client/components/PuzzleModalForm.jsx:41-96 | An edit dialog never sends a document type, so `onAdd` would refuse its payload. |
| PuzzleForm.SaveThenClean | imports/client/components/PuzzleModalForm.jsx:86-113 | A successful save leaves the dialog idle and unchanged-looking, holding the values just sent. |
| UserModel.MatchUsername | imports/lib/models/User.ts:34 | The loop accepts a username exactly when it has 3 to 15 characters, all from `[a-zA-Z0-9_]`. |
| UserModel.Issues | imports/lib/models/User.ts:32-54 | Validation reports exactly the fields that break their rule. |
| UserModel.IssuesEmpty | imports/lib/models/User.ts:32-54 | A user passes the schema exactly when validation reports nothing. |
| UserModel.OnlyIdRequired | imports/lib/models/User.ts:32-54 | Every field except the id is optional. |
| UsersResource.FindUserByGoogleEmail | imports/server/api/resources/users.js:8-20 | A profile whose Google account is the address wins, together with the user of the same id, which may be missing. Otherwise the first user with that e-mail and that user's profile are returned. Otherwise nothing. A user and profile found together share an id. |
| UsersResource.GoogleAccountWins | imports/server/api/resources/users.js:9-12 | When a profile claims the address, the users' own e-mail addresses play no part in the answer. |
| UsersResource.RenderUser | imports/server/api/resources/users.js:22-35 | Rendering fails exactly when the user has no first e-mail or no profile. `active` is absent when the user never logged in, and true exactly when the last login was less than 365 days ago. |
| UsersResource.GetUser | imports/server/api/resources/users.js:37-47 | The answer is 404 exactly when no user is found. A found user that renders is answered with its rendering, and one that does not is a 500. In a JSON answer `active` is absent exactly when the found user never logged in, and true exactly when that login was less than 365 days before now. |
| Migration39.Promote | imports/server/migrations/39-promote-profiles-to-toplevel.ts:12-31 | A user with a profile gets the profile's six fields at the top level and loses the profile. A user without a profile is untouched. Every other field is kept. |
| Migration39.RunUpCompletes | imports/server/migrations/39-promote-profiles-to-toplevel.ts:12-31 | With the schema check of the first update as a parameter, the run completes exactly when the check accepts every selected profile, and it then gives the same users as `Up`. |
| Migration39.RunUpStops | imports/server/migrations/39-promote-profiles-to-toplevel.ts:12-31 | A run that throws stops at the first rejected profile. The users before it are promoted, it and every later user are unchanged, and the error names its position. |
| Migration39.UpIdempotent | imports/server/migrations/39-promote-profiles-to-toplevel.ts:12-31 | After the migration no user has a profile, and running it again changes nothing. |
| Migration39.PromoteKeepsValid | imports/server/migrations/39-promote-profiles-to-toplevel.ts:16-25 | A valid user whose profile fields are valid stays valid after promotion. |

## The dead-server clean-up

Two details of the periodic clean-up are easy to misread.

- After taking the per-call lock, the clean-up only checks that removing the fetched Room by its `_id` removed something (`imports/server/mediasoup-api.ts:36-39`). It does not check again that the Room is still routed to a dead server. The comment above the loop (`imports/server/mediasoup-api.ts:29-32`) speaks of checking whether Peers are still joined; the only such check is the Peer lookup that follows the removal.
- A replacement Room takes the `createdBy` of the first remaining Peer of the call, not that of the removed Room (`imports/server/mediasoup-api.ts:41-48`). `CallGc.RehomedFacts` and `CallGc.GcPassRehomes` state this.

## Left out

- Locks and concurrency: each body run under `Locks.withLock` is one atomic step, and interleavings between servers are not modelled.
- The subscriptions' returned cursors, DDP wiring, the `mediasoup:debug` and `mediasoup:metadata` publications, logging, and the media plane: the router server's replies (Routers, Transports, ConnectAcks, ConsumerAcks, ProducerServers) are data in the store that the model never creates.
- `check(...)` argument type checks: arguments are typed.
- `withCommon` defaults: a Room and a Peer inserted by join get the caller as `createdBy`, and timestamps are not modelled. Soft deletion is modelled as removal.
- CallGc.GcPassClears: stated only for a pass run by a server that is not itself among the dead ones, since a replacement Room is routed to the server running the pass.
- CallGc.GcPassIdempotent: stated under the same assumption as `GcPassClears`.
- PuzzleForm.ShownIsSubmitted: holds only while the dialog renders the puzzle it was built from; `PuzzleForm.ShownIsSubmittedLive` states the case where the puzzle changed elsewhere.
- PuzzleForm.ShownIsSubmittedFrom: the invariant is about the puzzle the dialog was built from, not the live one it renders.
- Text case mapping covers ASCII letters only; JavaScript's full Unicode `toLowerCase`/`toUpperCase` is not modelled.
- Tag-name maps are plain maps: JavaScript object keys such as `__proto__` behave differently in the source.
- `computeSolvedness`, `puzzleInterestingness`, `nonEmptyString`, `stringId`, `foreignKey`, `z.string().email()` and `DiscordAccount` validators are parameters: they live in files that are not part of this model.
- UsersResource.FindUserByGoogleEmail: `Accounts.findUserByEmail` is modelled as an exact match on any address; the real one also matches case-insensitively.
- UsersResource.RenderUser: the crashes on a missing first e-mail or missing profile are a modelled error, answered with 500 by `GetUser`, rather than an exception.
- Migration39.Promote: describes a user whose profile the schema check of the first update accepts; `RunUp` models the throw for one it rejects, with the check as a parameter, and the changes that cleaning makes to accepted values (such as trimming strings) are not modelled. A profile field that is absent makes `Promote` set the top-level field to absent, overwriting any top-level value the user already had. This matches the source for users with no top-level copy of the field, whatever Mongo does with a `$set` of `undefined`; the index creation and drops after the loop are not modelled; `muteApplause` is carried although the `User` schema has no rule for it.
- The direction and confidence handlers are not modelled, because they only store `parseInt` of the input, whose `NaN` results are outside integer arithmetic. `clearError` and everything rendered as JSX in the puzzle page and dialogs are not modelled either.
- `URLSearchParams` is modelled as an ordered list of name/value pairs; `setSearchParams` (the router) is not modelled.
- PuzzlePage.OnSubmitGuess: the submit state between sending and the server's answer is not tracked, as the source keeps none.

=== FILE: call_gc.dfy ===
/** The periodic clean-up for calls when servers die: Peers created on a dead server
    are dropped, and each Room routed to a dead server is removed under the call's
    lock and, if the call still has a Peer, re-inserted routed to this server. */
module CallGc {
  import opened Common
  import opened Seqs
  import opened CallStore

  /** Selector `{ createdServer: { $nin: dead } }`: the Peers the clean-up keeps. */
  function PeerOnLiveServer(dead: set<string>): Peer -> bool {
    (p: Peer) => p.createdServer !in dead
  }

  /** Selector `{ routedServer: { $in: dead } }`. */
  function RoomOnDeadServer(dead: set<string>): Room -> bool {
    (r: Room) => r.routedServer in dead
  }

  /** One clean-up pass for the servers in `dead`, run on server `serverId`. The
      Rooms to revisit are fetched once, after the Peers are removed, and handled
      one after the other in that order. */
  function GcPass(s: Store, dead: set<string>, serverId: string): Store {
    var s1 := s.(peers := Filter(s.peers, PeerOnLiveServer(dead)));
    GcRooms(s1, Filter(s1.rooms, RoomOnDeadServer(dead)), serverId)
  }

  /** The sequential fold over the fetched Rooms. */
  function GcRooms(s: Store, rooms: seq<Room>, serverId: string): Store
    decreases |rooms|
  {
    if |rooms| == 0 then s
    else GcRooms(GcRoom(s, rooms[0], serverId), rooms[1..], serverId)
  }

  /** The locked body for one fetched Room: remove it by id and stop if nothing was
      removed; otherwise, if some Peer of the call is left, insert a Room for the
      call routed to this server and created by that Peer's creator, ignoring a
      duplicate-key rejection. */
  function GcRoom(s: Store, room: Room, serverId: string): (r: Store)
    ensures r.peers == s.peers
  {
    if FindFirst(s.rooms, RoomIdIs(room.id)).None? then s
    else
      var s1 := s.(rooms := Filter(s.rooms, Not(RoomIdIs(room.id))));
      var peer := FindFirst(s1.peers, PeerCallIs(room.call));
      if peer.None? then s1
      else IgnoringDuplicateKeyErrors(s1, InsertRoom(s1, room.hunt, room.call, serverId, peer.value.createdBy))
  }

  /** The Rooms a pass inserts, as a reference definition: for each fetched Room in
      order whose call still has a Peer, a Room with the next fresh id, routed to
      `serverId` and created by the call's first Peer's creator. */
  function Rehomed(rooms: seq<Room>, peers: seq<Peer>, nextId: nat, serverId: string): (r: seq<Room>)
    ensures |r| <= |rooms|
    decreases |rooms|
  {
    if |rooms| == 0 then []
    else
      var q := rooms[0];
      var peer := FindFirst(peers, PeerCallIs(q.call));
      var head := if peer.Some? then [Room(nextId, q.hunt, q.call, serverId, peer.value.createdBy)] else [];
      head + Rehomed(rooms[1..], peers, nextId + |head|, serverId)
  }

  /** Every Room `Rehomed` names carries the hunt and call of a fetched Room. */
  lemma {:induction false} RehomedSound(rooms: seq<Room>, peers: seq<Peer>, nextId: nat, serverId: string)
    ensures forall x {:trigger x in Rehomed(rooms, peers, nextId, serverId)} :: x in Rehomed(rooms, peers, nextId, serverId) ==>
      exists q {:trigger q in rooms} :: q in rooms && q.call == x.call && q.hunt == x.hunt
    decreases |rooms|
  {
    if |rooms| > 0 {
      var q := rooms[0];
      var peer := FindFirst(peers, PeerCallIs(q.call));
      var head := if peer.Some? then [Room(nextId, q.hunt, q.call, serverId, peer.value.createdBy)] else [];
      var tail := Rehomed(rooms[1..], peers, nextId + |head|, serverId);
      RehomedSound(rooms[1..], peers, nextId + |head|, serverId);
      forall x | x in Rehomed(rooms, peers, nextId, serverId)
        ensures exists q' :: q' in rooms && q'.call == x.call && q'.hunt == x.hunt
      {
        if x in head {
          assert q in rooms;
        } else {
          assert x in tail;
          var q' :| q' in rooms[1..] && q'.call == x.call && q'.hunt == x.hunt;
          assert q' in rooms;
        }
      }
    }
  }

  /** Every fetched Room whose call still has a Peer gets a Room with its hunt and
      call. */
  lemma {:induction false} RehomedComplete(rooms: seq<Room>, peers: seq<Peer>, nextId: nat, serverId: string)
    ensures forall q {:trigger q in rooms} :: q in rooms && FindFirst(peers, PeerCallIs(q.call)).Some? ==>
      exists x {:trigger x in Rehomed(rooms, peers, nextId, serverId)} :: x in Rehomed(rooms, peers, nextId, serverId) && x.call == q.call && x.hunt == q.hunt
    decreases |rooms|
  {
    if |rooms| > 0 {
      var q := rooms[0];
      var peer := FindFirst(peers, PeerCallIs(q.call));
      var head := if peer.Some? then [Room(nextId, q.hunt, q.call, serverId, peer.value.createdBy)] else [];
      var tail := Rehomed(rooms[1..], peers, nextId + |head|, serverId);
      RehomedComplete(rooms[1..], peers, nextId + |head|, serverId);
      assert Rehomed(rooms, peers, nextId, serverId) == head + tail;
      forall q' | q' in rooms && FindFirst(peers, PeerCallIs(q'.call)).Some?
        ensures exists x :: x in Rehomed(rooms, peers, nextId, serverId) && x.call == q'.call && x.hunt == q'.hunt
      {
        if q' == q {
          assert head[0] in head + tail;
        } else {
          var k :| 0 <= k < |rooms| && rooms[k] == q';
          assert rooms[1..][k - 1] == q';
          assert q' in rooms[1..];
          var x :| x in tail && x.call == q'.call && x.hunt == q'.hunt;
          assert x in head + tail;
        }
      }
    }
  }

  /** Selector "not one of `rooms`". */
  function RoomNotIn(rooms: seq<Room>): Room -> bool {
    (r: Room) => r !in rooms
  }

  /** The locked body keeps the store valid, whatever Room it is handed. */
  lemma GcRoomValid(s: Store, room: Room, serverId: string)
    requires Valid(s)
    ensures Valid(GcRoom(s, room, serverId))
  {
    if FindFirst(s.rooms, RoomIdIs(room.id)).Some? {
      var s1 := s.(rooms := Filter(s.rooms, Not(RoomIdIs(room.id))));
      FilterKeepsUnique(s.rooms, s.peers, Not(RoomIdIs(room.id)), (p: Peer) => true);
      FilterAll(s.peers, (p: Peer) => true);
      assert Valid(s1);
      var peer := FindFirst(s1.peers, PeerCallIs(room.call));
      if peer.Some? && InsertRoom(s1, room.hunt, room.call, serverId, peer.value.createdBy).Ok? {
        InsertRoomValid(s1, room.hunt, room.call, serverId, peer.value.createdBy);
      }
    }
  }

  /** The fold keeps the store valid. */
  lemma {:induction false} GcRoomsValid(s: Store, rooms: seq<Room>, serverId: string)
    requires Valid(s)
    ensures Valid(GcRooms(s, rooms, serverId))
    decreases |rooms|
  {
    if |rooms| > 0 {
      GcRoomValid(s, rooms[0], serverId);
      GcRoomsValid(GcRoom(s, rooms[0], serverId), rooms[1..], serverId);
    }
  }

  /** On a valid store, the locked body for one of its Rooms removes exactly that
      Room and, when the call still has a Peer, the reinsert is accepted: the Room
      appended is the one the reference definition names. */
  lemma GcRoomStep(s: Store, room: Room, serverId: string)
    requires room in s.rooms && forall x {:trigger x in s.rooms} :: x in s.rooms && x.call == room.call ==> x == room
    ensures var head := Rehomed([room], s.peers, s.nextId, serverId);
      GcRoom(s, room, serverId)
        == s.(rooms := Filter(s.rooms, Not(RoomIdIs(room.id))) + head, nextId := s.nextId + |head|)
  {
    assert FindFirst(s.rooms, RoomIdIs(room.id)).Some?;
    var s1 := s.(rooms := Filter(s.rooms, Not(RoomIdIs(room.id))));
    assert forall x :: x in s1.rooms ==> !RoomCallIs(room.call)(x);
    assert RoomFor(s1.rooms, room.call).None?;
    var peer := FindFirst(s.peers, PeerCallIs(room.call));
    assert [room][1..] == [];
    if peer.Some? {
      var head := [Room(s.nextId, room.hunt, room.call, serverId, peer.value.createdBy)];
      assert Rehomed([room], s.peers, s.nextId, serverId) == head;
      var s2 := AddRoom(s1, room.hunt, room.call, serverId, peer.value.createdBy);
      assert InsertRoom(s1, room.hunt, room.call, serverId, peer.value.createdBy) == Ok(s2);
      assert GcRoom(s, room, serverId) == s2;
      assert s2.rooms == s1.rooms + head;
      assert s2.nextId == s.nextId + 1;
      assert s2.peers == s.peers && s2.routers == s.routers && s2.transportRequests == s.transportRequests;
      assert s2.transports == s.transports && s2.connectRequests == s.connectRequests;
      assert s2.connectAcks == s.connectAcks && s2.consumerAcks == s.consumerAcks && s2.producerClients == s.producerClients;
      assert s2 == s.(rooms := s1.rooms + head, nextId := s.nextId + 1);
    } else {
      assert Rehomed([room], s.peers, s.nextId, serverId) == [];
      assert GcRoom(s, room, serverId) == s1;
      assert s1.rooms + [] == s1.rooms;
    }
  }

  /** What the fold needs of the Rooms it is handed: they are in the store, below
      its next id, have pairwise distinct calls, and each is the only Room of the
      store with its id and with its call. */
  ghost predicate FoldReady(s: Store, rooms: seq<Room>) {
    && DistinctCalls(rooms)
    && (forall q {:trigger q in rooms} :: q in rooms ==> q in s.rooms && q.id < s.nextId)
    && (forall x, q {:trigger x in s.rooms, q in rooms} :: x in s.rooms && q in rooms && (x.id == q.id || x.call == q.call) ==> x == q)
  }

  /** The fold over such Rooms equals the reference: those Rooms are gone, the Rooms
      `Rehomed` names are appended in order, and `nextId` advances past them. */
  lemma {:induction false} GcRoomsSpec(s: Store, rooms: seq<Room>, serverId: string)
    requires FoldReady(s, rooms)
    ensures var added := Rehomed(rooms, s.peers, s.nextId, serverId);
      GcRooms(s, rooms, serverId)
        == s.(rooms := Filter(s.rooms, RoomNotIn(rooms)) + added, nextId := s.nextId + |added|)
    decreases |rooms|
  {
    if |rooms| == 0 {
      FilterAll(s.rooms, RoomNotIn(rooms));
    } else {
      var s' := GcRoom(s, rooms[0], serverId);
      var head := Rehomed([rooms[0]], s.peers, s.nextId, serverId);
      assert s' == s.(rooms := Filter(s.rooms, Not(RoomIdIs(rooms[0].id))) + head, nextId := s.nextId + |head|) by {
        assert rooms[0] in rooms;
        GcRoomStep(s, rooms[0], serverId);
      }
      assert FoldReady(s', rooms[1..]) by {
        GcRoomsTailReady(s, rooms, serverId);
      }
      GcRoomsSpec(s', rooms[1..], serverId);
      assert Filter(Filter(s.rooms, Not(RoomIdIs(rooms[0].id))) + head, RoomNotIn(rooms[1..]))
          == Filter(s.rooms, RoomNotIn(rooms)) + head by {
        FoldFilterStep(s, rooms, serverId);
      }
      FoldStep(s, rooms, serverId);
    }
  }

  /** The induction step of `GcRoomsSpec` on the Room collection: removing the
      first Room and appending its replacement, then folding over the rest, gives
      the reference. */
  lemma FoldStep(s: Store, rooms: seq<Room>, serverId: string)
    requires |rooms| > 0
    requires Filter(Filter(s.rooms, Not(RoomIdIs(rooms[0].id))) + Rehomed([rooms[0]], s.peers, s.nextId, serverId), RoomNotIn(rooms[1..]))
      == Filter(s.rooms, RoomNotIn(rooms)) + Rehomed([rooms[0]], s.peers, s.nextId, serverId)
    ensures var head := Rehomed([rooms[0]], s.peers, s.nextId, serverId);
      var addedTail := Rehomed(rooms[1..], s.peers, s.nextId + |head|, serverId);
      && Filter(Filter(s.rooms, Not(RoomIdIs(rooms[0].id))) + head, RoomNotIn(rooms[1..])) + addedTail
           == Filter(s.rooms, RoomNotIn(rooms)) + Rehomed(rooms, s.peers, s.nextId, serverId)
      && |head| + |addedTail| == |Rehomed(rooms, s.peers, s.nextId, serverId)|
  {
    var q := rooms[0];
    var tail := rooms[1..];
    var head := Rehomed([q], s.peers, s.nextId, serverId);
    var addedTail := Rehomed(tail, s.peers, s.nextId + |head|, serverId);
    RehomedCons(rooms, s.peers, s.nextId, serverId);
    AppendStep(Filter(Filter(s.rooms, Not(RoomIdIs(q.id))) + head, RoomNotIn(tail)), Filter(s.rooms, RoomNotIn(rooms)),
      head, addedTail, Rehomed(rooms, s.peers, s.nextId, serverId));
  }

  /** The sequence algebra of the induction step. */
  lemma AppendStep<T>(kept: seq<T>, base: seq<T>, head: seq<T>, tail: seq<T>, all: seq<T>)
    requires kept == base + head && all == head + tail
    ensures kept + tail == base + all && |head| + |tail| == |all|
  {
  }

  /** The Room collection after the first step, filtered by the rest, is the
      collection filtered by all of them with the first replacement appended. */
  lemma FoldFilterStep(s: Store, rooms: seq<Room>, serverId: string)
    requires FoldReady(s, rooms) && |rooms| > 0
    ensures var head := Rehomed([rooms[0]], s.peers, s.nextId, serverId);
      Filter(Filter(s.rooms, Not(RoomIdIs(rooms[0].id))) + head, RoomNotIn(rooms[1..]))
        == Filter(s.rooms, RoomNotIn(rooms)) + head
  {
    var q := rooms[0];
    var tail := rooms[1..];
    var head := Rehomed([q], s.peers, s.nextId, serverId);
    var removed := Filter(s.rooms, Not(RoomIdIs(q.id)));
    FoldFilterFacts(s, rooms, serverId);
    FilterConcat(removed, head, RoomNotIn(tail));
    FilterAll(head, RoomNotIn(tail));
    FilterTwice(s.rooms, Not(RoomIdIs(q.id)), RoomNotIn(tail), RoomNotIn(rooms));
  }

  /** `Rehomed` unfolded once at the front. */
  lemma RehomedCons(rooms: seq<Room>, peers: seq<Peer>, nextId: nat, serverId: string)
    requires |rooms| > 0
    ensures var head := Rehomed([rooms[0]], peers, nextId, serverId);
      Rehomed(rooms, peers, nextId, serverId) == head + Rehomed(rooms[1..], peers, nextId + |head|, serverId)
  {
    assert [rooms[0]][1..] == [];
  }

  /** What the induction step of `GcRoomsSpec` needs: the remaining Rooms are ready
      for the store after the first step, and a Room of the store is not among all
      the Rooms exactly when it has another id than the first and is not among the
      rest. */
  lemma FoldFilterFacts(s: Store, rooms: seq<Room>, serverId: string)
    requires FoldReady(s, rooms) && |rooms| > 0
    ensures forall x {:trigger x in s.rooms} :: x in s.rooms ==> (RoomNotIn(rooms)(x) <==> Not(RoomIdIs(rooms[0].id))(x) && RoomNotIn(rooms[1..])(x))
    ensures forall x {:trigger x in Rehomed([rooms[0]], s.peers, s.nextId, serverId)} :: x in Rehomed([rooms[0]], s.peers, s.nextId, serverId) ==> RoomNotIn(rooms[1..])(x)
  {
    GcRoomsTailReady(s, rooms, serverId);
  }

  /** The remaining Rooms are ready for the store after the first step. */
  lemma GcRoomsTailReady(s: Store, rooms: seq<Room>, serverId: string)
    requires FoldReady(s, rooms) && |rooms| > 0
    ensures FoldReady(GcRoom(s, rooms[0], serverId), rooms[1..])
    ensures forall x {:trigger x in s.rooms} :: x in s.rooms ==> (RoomNotIn(rooms)(x) <==> Not(RoomIdIs(rooms[0].id))(x) && RoomNotIn(rooms[1..])(x))
    ensures forall x {:trigger x in Rehomed([rooms[0]], s.peers, s.nextId, serverId)} :: x in Rehomed([rooms[0]], s.peers, s.nextId, serverId) ==> RoomNotIn(rooms[1..])(x)
  {
    var q := rooms[0];
    var tail := rooms[1..];
    assert rooms == [q] + tail;
    assert forall k :: 0 <= k < |tail| ==> tail[k] == rooms[k + 1];
    forall x | x in tail
      ensures x.call != q.call
    {
      var k :| 0 <= k < |tail| && tail[k] == x;
      assert rooms[k + 1] == x;
    }
    var s' := GcRoom(s, q, serverId);
    var head := Rehomed([q], s.peers, s.nextId, serverId);
    var removed := Filter(s.rooms, Not(RoomIdIs(q.id)));
    assert q in rooms;
    GcRoomStep(s, q, serverId);
    assert s'.rooms == removed + head && s'.nextId >= s.nextId;
    assert [q][1..] == [];
    forall q' | q' in tail
      ensures q' in s'.rooms && q'.id < s'.nextId
    {
      assert q' in rooms;
      assert q' in removed;
    }
    forall x, q' | x in s'.rooms && q' in tail && (x.id == q'.id || x.call == q'.call)
      ensures x == q'
    {
      assert q' in rooms;
      if x in removed {
        assert x in s.rooms;
      }
    }
  }

  /** No two of `rooms` share a call. */
  ghost predicate DistinctCalls(rooms: seq<Room>) {
    forall i, j :: 0 <= i < j < |rooms| ==> rooms[i].call != rooms[j].call
  }

  /** At most one Room per call means pairwise distinct calls. */
  lemma UniqueDistinctCalls(rooms: seq<Room>)
    requires forall c :: Count(rooms, RoomCallIs(c)) <= 1
    ensures DistinctCalls(rooms)
  {
    forall i, j | 0 <= i < j < |rooms|
      ensures rooms[i].call != rooms[j].call
    {
      if rooms[i].call == rooms[j].call {
        CountTwo(rooms, RoomCallIs(rooms[i].call), i, j);
      }
    }
  }

  /** The Rooms `Rehomed` names are routed to `serverId`, carry fresh ids from
      `nextId` on, and are created by the creator of their call's first Peer. */
  lemma {:induction false} RehomedFacts(rooms: seq<Room>, peers: seq<Peer>, nextId: nat, serverId: string)
    ensures forall x {:trigger x in Rehomed(rooms, peers, nextId, serverId)} :: x in Rehomed(rooms, peers, nextId, serverId) ==>
        && x.routedServer == serverId
        && nextId <= x.id < nextId + |Rehomed(rooms, peers, nextId, serverId)|
        && FindFirst(peers, PeerCallIs(x.call)).Some?
        && x.createdBy == FindFirst(peers, PeerCallIs(x.call)).value.createdBy
    decreases |rooms|
  {
    if |rooms| > 0 {
      var q := rooms[0];
      var peer := FindFirst(peers, PeerCallIs(q.call));
      var head := if peer.Some? then [Room(nextId, q.hunt, q.call, serverId, peer.value.createdBy)] else [];
      var tail := Rehomed(rooms[1..], peers, nextId + |head|, serverId);
      RehomedFacts(rooms[1..], peers, nextId + |head|, serverId);
      var added := Rehomed(rooms, peers, nextId, serverId);
      assert added == head + tail;
      forall x | x in added
        ensures x.routedServer == serverId && nextId <= x.id < nextId + |added|
        ensures FindFirst(peers, PeerCallIs(x.call)).Some?
        ensures x.createdBy == FindFirst(peers, PeerCallIs(x.call)).value.createdBy
      {
        if x in head {
          assert peer.Some? && x == Room(nextId, q.hunt, q.call, serverId, peer.value.createdBy);
        } else {
          assert x in tail;
          assert nextId + |head| <= x.id < nextId + |head| + |tail|;
        }
      }
    }
  }

  /** The Rooms a pass fetches are ready for the fold: on a valid store, each is
      the only Room with its id and with its call. */
  lemma FetchedReady(s: Store, dead: set<string>)
    requires Valid(s)
    ensures FoldReady(s.(peers := Filter(s.peers, PeerOnLiveServer(dead))), Filter(s.rooms, RoomOnDeadServer(dead)))
  {
    var fetched := Filter(s.rooms, RoomOnDeadServer(dead));
    forall c
      ensures Count(fetched, RoomCallIs(c)) <= 1
    {
      CountFilterLe(s.rooms, RoomOnDeadServer(dead), RoomCallIs(c));
    }
    UniqueDistinctCalls(fetched);
    forall x, q | x in s.rooms && q in fetched && (x.id == q.id || x.call == q.call)
      ensures x == q
    {
      if x.id == q.id {
        AtMostOne(s.rooms, RoomIdIs(q.id), x, q);
      } else {
        AtMostOne(s.rooms, RoomCallIs(q.call), x, q);
      }
    }
  }

  /** A pass on a valid store equals the reference: Peers on dead servers are gone,
      Rooms routed to dead servers are gone, and the Rooms `Rehomed` names for them
      (against the surviving Peers) are appended. */
  lemma GcPassSpec(s: Store, dead: set<string>, serverId: string)
    requires Valid(s)
    ensures var live := Filter(s.peers, PeerOnLiveServer(dead));
      var added := Rehomed(Filter(s.rooms, RoomOnDeadServer(dead)), live, s.nextId, serverId);
      GcPass(s, dead, serverId)
        == s.(peers := live, rooms := Filter(s.rooms, Not(RoomOnDeadServer(dead))) + added, nextId := s.nextId + |added|)
  {
    var s1 := s.(peers := Filter(s.peers, PeerOnLiveServer(dead)));
    var fetched := Filter(s.rooms, RoomOnDeadServer(dead));
    FetchedReady(s, dead);
    GcRoomsSpec(s1, fetched, serverId);
    FilterSame(s.rooms, RoomNotIn(fetched), Not(RoomOnDeadServer(dead)));
  }

  /** A pass keeps the store valid. */
  lemma GcPassValid(s: Store, dead: set<string>, serverId: string)
    requires Valid(s)
    ensures Valid(GcPass(s, dead, serverId))
  {
    var s1 := s.(peers := Filter(s.peers, PeerOnLiveServer(dead)));
    FilterKeepsUnique(s.rooms, s.peers, (r: Room) => true, PeerOnLiveServer(dead));
    FilterAll(s.rooms, (r: Room) => true);
    assert Valid(s1);
    GcRoomsValid(s1, Filter(s1.rooms, RoomOnDeadServer(dead)), serverId);
  }

  /** After a pass run on a live server, no Peer created on a dead server and no
      Room routed to one is left; the Peers on live servers and the Rooms routed to
      live servers are all kept; and every other Room is new, routed to this
      server, with a fresh id and created by the creator of its call's first
      surviving Peer. */
  lemma GcPassClears(s: Store, dead: set<string>, serverId: string)
    requires Valid(s) && serverId !in dead
    ensures var r := GcPass(s, dead, serverId);
      && r.peers == Filter(s.peers, PeerOnLiveServer(dead))
      && (forall p {:trigger p in r.peers} :: p in r.peers ==> p.createdServer !in dead)
      && (forall x {:trigger x in r.rooms} :: x in r.rooms ==> x.routedServer !in dead)
      && (forall x {:trigger x in s.rooms} :: x in s.rooms && x.routedServer !in dead ==> x in r.rooms)
      && (forall x {:trigger x in r.rooms} :: x in r.rooms && x !in s.rooms ==>
            && x.routedServer == serverId
            && s.nextId <= x.id < r.nextId
            && FindFirst(r.peers, PeerCallIs(x.call)).Some?
            && x.createdBy == FindFirst(r.peers, PeerCallIs(x.call)).value.createdBy)
  {
    var live := Filter(s.peers, PeerOnLiveServer(dead));
    var fetched := Filter(s.rooms, RoomOnDeadServer(dead));
    var added := Rehomed(fetched, live, s.nextId, serverId);
    GcPassSpec(s, dead, serverId);
    RehomedFacts(fetched, live, s.nextId, serverId);
    var r := GcPass(s, dead, serverId);
    assert r.rooms == Filter(s.rooms, Not(RoomOnDeadServer(dead))) + added;
    assert r.nextId == s.nextId + |added|;
  }

  /** A Room routed to a dead server is replaced exactly when its call still has a
      Peer on a live server: then a Room for the same hunt and call is routed to
      this server, created by the creator of the call's first surviving Peer;
      otherwise no Room for the call remains. */
  lemma GcPassRehomes(s: Store, dead: set<string>, serverId: string, q: Room)
    requires Valid(s) && q in s.rooms && q.routedServer in dead
    ensures var r := GcPass(s, dead, serverId);
      var first := FindFirst(r.peers, PeerCallIs(q.call));
      && (first.Some? ==>
            exists x {:trigger x in r.rooms} ::
              x in r.rooms && x.hunt == q.hunt && x.call == q.call && x.routedServer == serverId && x.createdBy == first.value.createdBy)
      && (first.None? ==> forall x {:trigger x in r.rooms} :: x in r.rooms ==> x.call != q.call)
  {
    var live := Filter(s.peers, PeerOnLiveServer(dead));
    var fetched := Filter(s.rooms, RoomOnDeadServer(dead));
    var added := Rehomed(fetched, live, s.nextId, serverId);
    GcPassSpec(s, dead, serverId);
    RehomedFacts(fetched, live, s.nextId, serverId);
    var r := GcPass(s, dead, serverId);
    var kept := Filter(s.rooms, Not(RoomOnDeadServer(dead)));
    assert r.rooms == kept + added;
    assert r.peers == live;
    assert q in fetched;
    var first := FindFirst(live, PeerCallIs(q.call));
    if first.Some? {
      RehomedComplete(fetched, live, s.nextId, serverId);
      var x :| x in added && x.call == q.call && x.hunt == q.hunt;
      assert x in r.rooms;
    } else {
      forall x | x in r.rooms
        ensures x.call != q.call
      {
        if x in kept {
          if x.call == q.call {
            AtMostOne(s.rooms, RoomCallIs(q.call), x, q);
          }
        } else {
          assert x in added;
        }
      }
    }
  }

  /** A second pass for the same dead servers, run on a live server, changes
      nothing. */
  lemma GcPassIdempotent(s: Store, dead: set<string>, serverId: string)
    requires Valid(s) && serverId !in dead
    ensures GcPass(GcPass(s, dead, serverId), dead, serverId) == GcPass(s, dead, serverId)
  {
    var r := GcPass(s, dead, serverId);
    GcPassClears(s, dead, serverId);
    FilterAll(r.peers, PeerOnLiveServer(dead));
    CountZero(r.rooms, RoomOnDeadServer(dead));
    assert r.(peers := Filter(r.peers, PeerOnLiveServer(dead))) == r;
  }
}

=== FILE: call_room.dfy ===
/** Joining and leaving a call (`mediasoup:join` and its stop handler). Each body that
    runs under the per-call lock is one atomic transition on the store. */
module CallRoom {
  import opened Common
  import opened Seqs
  import opened CallStore

  /** What the join handler knows besides its arguments: the logged-in user (if
      any), the hunt-membership check, the `disable.webrtc` flag, this server's id
      and whether it runs in development mode. */
  datatype JoinContext = JoinContext(
    userId: Option<string>,
    mayJoinCallsForHunt: (string, string) -> bool,
    webrtcDisabled: bool,
    serverId: string,
    isDevelopment: bool)

  /** Joiners from this many peers on start out muted. */
  function CrowdSize(isDevelopment: bool): nat {
    if isDevelopment then 3 else 8
  }

  /** The crowd rule for a fresh joiner given the peers already in the call. */
  function CrowdState(peerCount: nat, crowdSize: nat): PeerState {
    if peerCount + 1 >= crowdSize then Muted else Active
  }

  /** The state a reconnecting tab carries over: deafened over muted over active. */
  function CarriedState(stale: Peer): PeerState {
    if stale.deafened then Deafened else if stale.muted then Muted else Active
  }

  /** The Peer document the join inserts for `state`. */
  function NewPeer(id: nat, hunt: string, call: string, tab: string, serverId: string, userId: string, state: PeerState): (p: Peer)
    ensures p.deafened ==> p.muted
    ensures p.muted <==> state != Active
  {
    Peer(id, hunt, call, tab, serverId, userId, state != Active, state == Deafened, state)
  }

  /** Selector of the old-peer removal `{ _id, hunt, call, tab }`. */
  function PeerDocIs(id: nat, hunt: string, call: string, tab: string): Peer -> bool {
    (p: Peer) => p.id == id && p.hunt == hunt && p.call == call && p.tab == tab
  }

  /** `mediasoup:join`: the authorization checks, then the locked body. On success
      returns the new store and the id of the inserted Peer. */
  function Join(s: Store, ctx: JoinContext, hunt: string, call: string, tab: string): (r: Result<(Store, nat), CallError>)
    ensures ctx.userId.None? ==> r == Err(NotLoggedIn)
    ensures ctx.userId.Some? && !ctx.mayJoinCallsForHunt(ctx.userId.value, hunt) ==> r == Err(NotHuntMember)
    ensures ctx.userId.Some? && ctx.mayJoinCallsForHunt(ctx.userId.value, hunt) && ctx.webrtcDisabled ==> r == Err(WebRtcDisabled)
    ensures r.Ok? <==> ctx.userId.Some? && ctx.mayJoinCallsForHunt(ctx.userId.value, hunt) && !ctx.webrtcDisabled
  {
    if ctx.userId.None? then Err(NotLoggedIn)
    else if !ctx.mayJoinCallsForHunt(ctx.userId.value, hunt) then Err(NotHuntMember)
    else if ctx.webrtcDisabled then Err(WebRtcDisabled)
    else Ok(JoinLocked(s, ctx.serverId, ctx.userId.value, hunt, call, tab, CrowdSize(ctx.isDevelopment)))
  }

  /** The body run under `mediasoup:room:<call>`: make sure the call has a Room,
      drop a stale Peer of the same tab, then insert the new Peer. Returns the new
      store and the new Peer's id. */
  function JoinLocked(s: Store, serverId: string, userId: string, hunt: string, call: string, tab: string, crowdSize: nat): (Store, nat) {
    var s1 := EnsureRoom(s, hunt, call, serverId, userId);
    var stale := FindFirst(s1.peers, PeerTabIs(hunt, call, tab));
    var s2 := RemoveStalePeer(s1, stale, hunt, call, tab);
    var state := if stale.Some? then CarriedState(stale.value) else CrowdState(Count(s2.peers, PeerHuntCallIs(hunt, call)), crowdSize);
    var peer := NewPeer(s2.nextId, hunt, call, tab, serverId, userId, state);
    (AddPeer(s2, peer), peer.id)
  }

  /** Insert a Room routed to this server unless `Rooms.findOne({ call })` finds one. */
  function EnsureRoom(s: Store, hunt: string, call: string, serverId: string, userId: string): Store {
    if RoomFor(s.rooms, call).None? then AddRoom(s, hunt, call, serverId, userId) else s
  }

  /** Remove the stale Peer of the tab, if the lookup found one. */
  function RemoveStalePeer(s: Store, stale: Option<Peer>, hunt: string, call: string, tab: string): Store {
    if stale.Some? then s.(peers := Filter(s.peers, Not(PeerDocIs(stale.value.id, hunt, call, tab)))) else s
  }

  /** `Peers.insert(peer)` under the next fresh id. */
  function AddPeer(s: Store, peer: Peer): Store {
    s.(peers := s.peers + [peer], nextId := s.nextId + 1)
  }

  /** The join's stop handler, under the same lock: remove the peer, then the call's
      Room if no peer of the call is left. */
  function Leave(s: Store, call: string, peerId: nat): Store {
    var s1 := s.(peers := Filter(s.peers, Not(PeerIdIs(peerId))));
    if FindFirst(s1.peers, PeerCallIs(call)).Some? then s1
    else s1.(rooms := Filter(s1.rooms, Not(RoomCallIs(call))))
  }

  /** The Room stage: the call ends with exactly one Room, a new one only if it had
      none, and that insert is one the unique index accepts. */
  lemma EnsureRoomFacts(s: Store, hunt: string, call: string, serverId: string, userId: string)
    requires Valid(s)
    ensures var s1 := EnsureRoom(s, hunt, call, serverId, userId);
      && Valid(s1)
      && s1 == s.(rooms := s1.rooms, nextId := s1.nextId)
      && s1.nextId >= s.nextId
      && Count(s1.rooms, RoomCallIs(call)) == 1
      && (RoomFor(s.rooms, call).Some? ==> s1 == s)
      && (RoomFor(s.rooms, call).None? ==> InsertRoom(s, hunt, call, serverId, userId) == Ok(s1))
  {
    if RoomFor(s.rooms, call).None? {
      InsertRoomValid(s, hunt, call, serverId, userId);
    } else {
      var room := RoomFor(s.rooms, call).value;
      assert room in Filter(s.rooms, RoomCallIs(call));
    }
  }

  /** The stale-peer stage: no Peer of the tab is left, Peers of other tabs are
      untouched, and the call's head count drops by one exactly when a stale Peer
      was found. */
  lemma RemoveStaleFacts(s: Store, hunt: string, call: string, tab: string)
    requires Valid(s)
    ensures var stale := FindFirst(s.peers, PeerTabIs(hunt, call, tab));
      var s2 := RemoveStalePeer(s, stale, hunt, call, tab);
      && Valid(s2)
      && s2 == s.(peers := s2.peers)
      && Count(s2.peers, PeerTabIs(hunt, call, tab)) == 0
      && (forall p :: !PeerTabIs(hunt, call, tab)(p) ==> (p in s2.peers <==> p in s.peers))
      && Count(s2.peers, PeerHuntCallIs(hunt, call)) == Count(s.peers, PeerHuntCallIs(hunt, call)) - (if stale.Some? then 1 else 0)
  {
    var key := PeerTabIs(hunt, call, tab);
    var stale := FindFirst(s.peers, key);
    if stale.Some? {
      var o := stale.value;
      var keep := Not(PeerDocIs(o.id, hunt, call, tab));
      var s2 := RemoveStalePeer(s, stale, hunt, call, tab);
      forall p | p in s2.peers
        ensures !key(p)
      {
        if key(p) {
          AtMostOne(s.peers, key, o, p);
        }
      }
      CountZero(s2.peers, key);
      CountRemoveOne(s.peers, keep, key, PeerHuntCallIs(hunt, call), o);
      FilterKeepsUnique(s.rooms, s.peers, (r: Room) => true, keep);
      FilterAll(s.rooms, (r: Room) => true);
    } else {
      CountZero(s.peers, key);
    }
  }

  /** The insert stage: a Peer with a fresh id for a tab with no Peer keeps the store
      valid and leaves exactly one Peer for the tab. */
  lemma AddPeerFacts(s: Store, peer: Peer)
    requires Valid(s)
    requires peer.id == s.nextId
    requires Count(s.peers, PeerTabIs(peer.hunt, peer.call, peer.tab)) == 0
    ensures Valid(AddPeer(s, peer))
    ensures Count(AddPeer(s, peer).peers, PeerTabIs(peer.hunt, peer.call, peer.tab)) == 1
  {
    var s' := AddPeer(s, peer);
    CountZero(s.peers, PeerIdIs(s.nextId));
    forall h, c, t
      ensures Count(s'.peers, PeerTabIs(h, c, t)) <= 1
    {
      CountAppend(s.peers, peer, PeerTabIs(h, c, t));
      if h == peer.hunt && c == peer.call && t == peer.tab {
        assert PeerTabIs(h, c, t) == PeerTabIs(peer.hunt, peer.call, peer.tab);
      }
    }
    forall i
      ensures Count(s'.peers, PeerIdIs(i)) <= 1
    {
      CountAppend(s.peers, peer, PeerIdIs(i));
    }
    CountAppend(s.peers, peer, PeerTabIs(peer.hunt, peer.call, peer.tab));
  }

  /** After a join the call has exactly one Room. It is newly routed to this server
      (created by the caller) only if the call had none, through an insert the
      unique index accepts; an existing Room is left as it was. Besides the Rooms
      and Peers, nothing in the store changes. */
  lemma JoinRoom(s: Store, serverId: string, userId: string, hunt: string, call: string, tab: string, crowdSize: nat)
    requires Valid(s)
    ensures var s' := JoinLocked(s, serverId, userId, hunt, call, tab, crowdSize).0;
      && (RoomFor(s.rooms, call).Some? ==> s'.rooms == s.rooms)
      && (RoomFor(s.rooms, call).None? ==> s'.rooms == s.rooms + [Room(s.nextId, hunt, call, serverId, userId)])
      && (RoomFor(s.rooms, call).None? ==> InsertRoom(s, hunt, call, serverId, userId).Ok?)
      && Count(s'.rooms, RoomCallIs(call)) == 1
      && s' == s.(rooms := s'.rooms, peers := s'.peers, nextId := s'.nextId)
  {
    EnsureRoomFacts(s, hunt, call, serverId, userId);
  }

  /** After a join there is exactly one Peer for the tab: the new one, created on this
      server by the caller. Peers of other tabs are untouched. A rejoin of a tab
      leaves the call's head count unchanged; a fresh join adds one. */
  lemma JoinPeer(s: Store, serverId: string, userId: string, hunt: string, call: string, tab: string, crowdSize: nat)
    requires Valid(s)
    ensures var (s', id) := JoinLocked(s, serverId, userId, hunt, call, tab, crowdSize);
      && Count(s'.peers, PeerTabIs(hunt, call, tab)) == 1
      && (exists p {:trigger p in s'.peers} :: p in s'.peers && p.id == id && p.hunt == hunt && p.call == call && p.tab == tab
            && p.createdServer == serverId && p.createdBy == userId)
      && (forall p :: !PeerTabIs(hunt, call, tab)(p) ==> (p in s'.peers <==> p in s.peers))
      && Count(s'.peers, PeerHuntCallIs(hunt, call))
           == Count(s.peers, PeerHuntCallIs(hunt, call)) + (if FindFirst(s.peers, PeerTabIs(hunt, call, tab)).Some? then 0 else 1)
  {
    var s2, peer := JoinStages(s, serverId, userId, hunt, call, tab, crowdSize);
    var s' := AddPeer(s2, peer);
    assert Count(s'.peers, PeerTabIs(hunt, call, tab)) == 1 by {
      AddPeerFacts(s2, peer);
    }
    assert Count(s'.peers, PeerHuntCallIs(hunt, call)) == Count(s2.peers, PeerHuntCallIs(hunt, call)) + 1 by {
      CountAppend(s2.peers, peer, PeerHuntCallIs(hunt, call));
    }
    assert peer in s'.peers;
  }

  /** The join as its last stage: the insert of `peer` into `s2`, a valid store
      with no Peer for the tab that differs from `s` only in the stale Peer. */
  lemma JoinStages(s: Store, serverId: string, userId: string, hunt: string, call: string, tab: string, crowdSize: nat)
    returns (s2: Store, peer: Peer)
    requires Valid(s)
    ensures JoinLocked(s, serverId, userId, hunt, call, tab, crowdSize) == (AddPeer(s2, peer), peer.id)
    ensures Valid(s2) && peer.id == s2.nextId
    ensures peer.hunt == hunt && peer.call == call && peer.tab == tab && peer.createdServer == serverId && peer.createdBy == userId
    ensures Count(s2.peers, PeerTabIs(hunt, call, tab)) == 0
    ensures forall p :: !PeerTabIs(hunt, call, tab)(p) ==> (p in s2.peers <==> p in s.peers)
    ensures Count(s2.peers, PeerHuntCallIs(hunt, call))
      == Count(s.peers, PeerHuntCallIs(hunt, call)) - (if FindFirst(s.peers, PeerTabIs(hunt, call, tab)).Some? then 1 else 0)
  {
    var s1 := EnsureRoom(s, hunt, call, serverId, userId);
    EnsureRoomFacts(s, hunt, call, serverId, userId);
    var stale := FindFirst(s1.peers, PeerTabIs(hunt, call, tab));
    s2 := RemoveStalePeer(s1, stale, hunt, call, tab);
    RemoveStaleFacts(s1, hunt, call, tab);
    var state := if stale.Some? then CarriedState(stale.value) else CrowdState(Count(s2.peers, PeerHuntCallIs(hunt, call)), crowdSize);
    peer := NewPeer(s2.nextId, hunt, call, tab, serverId, userId, state);
  }

  /** The joiner's state: a reconnecting tab keeps its old state (deafened over muted
      over active); otherwise it starts muted exactly when it makes the call's head
      count reach the crowd size. Mute and deafen flags follow the state, so a
      deafened peer is always muted. */
  lemma JoinInitialState(s: Store, serverId: string, userId: string, hunt: string, call: string, tab: string, crowdSize: nat)
    requires Valid(s)
    ensures var (s', id) := JoinLocked(s, serverId, userId, hunt, call, tab, crowdSize);
      var stale := FindFirst(s.peers, PeerTabIs(hunt, call, tab));
      exists p {:trigger p in s'.peers} :: p in s'.peers && p.id == id
        && (stale.Some? ==> p.initialPeerState == CarriedState(stale.value))
        && (stale.None? ==> (p.initialPeerState == Muted <==> Count(s.peers, PeerHuntCallIs(hunt, call)) + 1 >= crowdSize))
        && (stale.None? ==> (p.initialPeerState == Active <==> Count(s.peers, PeerHuntCallIs(hunt, call)) + 1 < crowdSize))
        && p.muted == (p.initialPeerState != Active)
        && p.deafened == (p.initialPeerState == Deafened)
  {
    var s1 := EnsureRoom(s, hunt, call, serverId, userId);
    EnsureRoomFacts(s, hunt, call, serverId, userId);
    var stale := FindFirst(s1.peers, PeerTabIs(hunt, call, tab));
    var s2 := RemoveStalePeer(s1, stale, hunt, call, tab);
    var state := if stale.Some? then CarriedState(stale.value) else CrowdState(Count(s2.peers, PeerHuntCallIs(hunt, call)), crowdSize);
    var peer := NewPeer(s2.nextId, hunt, call, tab, serverId, userId, state);
    assert JoinLocked(s, serverId, userId, hunt, call, tab, crowdSize) == (AddPeer(s2, peer), peer.id);
    assert peer in AddPeer(s2, peer).peers;
  }

  /** A join keeps the store valid. */
  lemma JoinValid(s: Store, serverId: string, userId: string, hunt: string, call: string, tab: string, crowdSize: nat)
    requires Valid(s)
    ensures Valid(JoinLocked(s, serverId, userId, hunt, call, tab, crowdSize).0)
  {
    var s1 := EnsureRoom(s, hunt, call, serverId, userId);
    EnsureRoomFacts(s, hunt, call, serverId, userId);
    var stale := FindFirst(s1.peers, PeerTabIs(hunt, call, tab));
    var s2 := RemoveStalePeer(s1, stale, hunt, call, tab);
    RemoveStaleFacts(s1, hunt, call, tab);
    var state := if stale.Some? then CarriedState(stale.value) else CrowdState(Count(s2.peers, PeerHuntCallIs(hunt, call)), crowdSize);
    var peer := NewPeer(s2.nextId, hunt, call, tab, serverId, userId, state);
    AddPeerFacts(s2, peer);
  }

  /** Leaving removes exactly the peer with that id, and removes the call's Room
      exactly when no peer of the call remains; Rooms of other calls are untouched. */
  lemma LeaveEffect(s: Store, call: string, peerId: nat)
    requires Valid(s)
    ensures var s' := Leave(s, call, peerId);
      && (forall p {:trigger p in s'.peers} {:trigger p in s.peers} :: p in s'.peers <==> p in s.peers && p.id != peerId)
      && |s'.peers| == |s.peers| - Count(s.peers, PeerIdIs(peerId))
      && Count(s.peers, PeerIdIs(peerId)) <= 1
      && ((exists p {:trigger p in s'.peers} :: p in s'.peers && p.call == call) ==> s'.rooms == s.rooms)
      && ((forall p {:trigger p in s'.peers} :: p in s'.peers ==> p.call != call) ==> forall r {:trigger r in s'.rooms} :: r in s'.rooms ==> r.call != call)
      && (forall r: Room :: r.call != call ==> (r in s'.rooms <==> r in s.rooms))
      && s' == s.(peers := s'.peers, rooms := s'.rooms)
  {
    FilterSplitCount(s.peers, PeerIdIs(peerId));
  }

  /** `|Filter(s, Not(f))| == |s| - Count(s, f)` */
  lemma {:induction false} FilterSplitCount<T(!new)>(s: seq<T>, f: T -> bool)
    ensures |Filter(s, Not(f))| == |s| - Count(s, f)
    decreases |s|
  {
    if |s| > 0 {
      FilterSplitCount(s[..|s| - 1], f);
    }
  }

  /** Leaving keeps the store valid. */
  lemma LeaveValid(s: Store, call: string, peerId: nat)
    requires Valid(s)
    ensures Valid(Leave(s, call, peerId))
  {
    FilterKeepsUnique(s.rooms, s.peers, Not(RoomCallIs(call)), Not(PeerIdIs(peerId)));
    FilterKeepsUnique(s.rooms, Filter(s.peers, Not(PeerIdIs(peerId))), (r: Room) => true, (p: Peer) => true);
    FilterAll(s.rooms, (r: Room) => true);
    FilterAll(Filter(s.peers, Not(PeerIdIs(peerId))), (p: Peer) => true);
  }

  /** The first peer of an empty call joining and then leaving restores the Room
      and Peer collections. */
  lemma JoinThenLeave(s: Store, serverId: string, userId: string, hunt: string, call: string, tab: string, crowdSize: nat)
    requires Valid(s)
    requires forall r {:trigger r in s.rooms} :: r in s.rooms ==> r.call != call
    requires forall p {:trigger p in s.peers} :: p in s.peers ==> p.call != call
    ensures var (s', id) := JoinLocked(s, serverId, userId, hunt, call, tab, crowdSize);
      Leave(s', call, id).rooms == s.rooms && Leave(s', call, id).peers == s.peers
  {
    var room := Room(s.nextId, hunt, call, serverId, userId);
    var s1 := EnsureRoom(s, hunt, call, serverId, userId);
    assert s1.rooms == s.rooms + [room];
    var stale := FindFirst(s1.peers, PeerTabIs(hunt, call, tab));
    assert stale.None?;
    var peer := NewPeer(s1.nextId, hunt, call, tab, serverId, userId, CrowdState(Count(s1.peers, PeerHuntCallIs(hunt, call)), crowdSize));
    assert JoinLocked(s, serverId, userId, hunt, call, tab, crowdSize) == (AddPeer(s1, peer), peer.id);
    FilterAppend(s.peers, peer, Not(PeerIdIs(peer.id)));
    FilterAll(s.peers, Not(PeerIdIs(peer.id)));
    FilterAppend(s.rooms, room, Not(RoomCallIs(call)));
    FilterAll(s.rooms, Not(RoomCallIs(call)));
  }
}

=== FILE: call_store.dfy ===
/** The shared store behind voice calls: the Room, Peer, Router and negotiation
    collections, each a sequence of documents in natural (insertion) order, and the
    store-wide invariants the locked transitions keep.

    Document ids come from the store's `nextId` counter, standing for the fresh
    `_id` the database assigns on insert. */
module CallStore {
  import opened Common
  import opened Seqs

  /** The three states a peer can join in. */
  datatype PeerState = Active | Muted | Deafened

  /** "This call's media router lives on `routedServer`." */
  datatype Room = Room(id: nat, hunt: string, call: string, routedServer: string, createdBy: string)

  /** One participant's membership in one call from one browser tab. */
  datatype Peer = Peer(
    id: nat,
    hunt: string,
    call: string,
    tab: string,
    createdServer: string,
    createdBy: string,
    muted: bool,
    deafened: bool,
    initialPeerState: PeerState)

  /** The media router instantiated on the room's server (written by the media side). */
  datatype Router = Router(id: nat, call: string, createdServer: string)

  /** A peer's request for a transport, addressed to the router's server. */
  datatype TransportRequest = TransportRequest(
    id: nat,
    createdServer: string,
    routedServer: string,
    call: string,
    peer: nat,
    rtpCapabilities: string)

  /** The router server's answer to a transport request. */
  datatype Transport = Transport(
    id: nat,
    createdServer: string,
    createdBy: string,
    call: string,
    peer: nat,
    transportRequest: nat)

  /** Negotiation records correlated with a transport request; only the correlation
      key matters to the handlers modelled here. */
  datatype ConnectRequest = ConnectRequest(id: nat, transportRequest: nat)
  datatype ConnectAck = ConnectAck(id: nat, transportRequest: nat)
  datatype ConsumerAck = ConsumerAck(id: nat, transportRequest: nat)

  datatype MediaKind = Audio | Video

  /** A client's announcement of a media track on one of its transports. */
  datatype ProducerClient = ProducerClient(
    id: nat,
    createdServer: string,
    routedServer: string,
    call: string,
    peer: nat,
    transport: nat,
    transportRequest: nat,
    trackId: string,
    kind: MediaKind,
    rtpParameters: string,
    paused: bool)

  datatype Store = Store(
    rooms: seq<Room>,
    peers: seq<Peer>,
    routers: seq<Router>,
    transportRequests: seq<TransportRequest>,
    transports: seq<Transport>,
    connectRequests: seq<ConnectRequest>,
    connectAcks: seq<ConnectAck>,
    consumerAcks: seq<ConsumerAck>,
    producerClients: seq<ProducerClient>,
    nextId: nat)

  /** The errors the call handlers raise. */
  datatype CallError =
    | NotLoggedIn
    | NotHuntMember
    | WebRtcDisabled
    | PeerNotFound
    | RouterNotFound
    | TransportNotFound
    | NotAllowed
    | DuplicateKey

  /** The `Meteor.Error` status of each error (the database's own code for a
      duplicate key). */
  function StatusCode(e: CallError): nat {
    match e
    case NotLoggedIn => 401
    case NotHuntMember => 403
    case WebRtcDisabled => 403
    case PeerNotFound => 404
    case RouterNotFound => 404
    case TransportNotFound => 404
    case NotAllowed => 403
    case DuplicateKey => 11000
  }

  // Query selectors, one per `find` shape used by the handlers.

  function RoomCallIs(call: string): Room -> bool {
    (r: Room) => r.call == call
  }

  function RoomIdIs(id: nat): Room -> bool {
    (r: Room) => r.id == id
  }

  function PeerIdIs(id: nat): Peer -> bool {
    (p: Peer) => p.id == id
  }

  function PeerCallIs(call: string): Peer -> bool {
    (p: Peer) => p.call == call
  }

  function PeerHuntCallIs(hunt: string, call: string): Peer -> bool {
    (p: Peer) => p.hunt == hunt && p.call == call
  }

  function PeerTabIs(hunt: string, call: string, tab: string): Peer -> bool {
    (p: Peer) => p.hunt == hunt && p.call == call && p.tab == tab
  }

  /** `Rooms.findOne({ call })` */
  function RoomFor(rooms: seq<Room>, call: string): Option<Room> {
    FindFirst(rooms, RoomCallIs(call))
  }

  /** At most one Room per call (the unique index on `call`), and at most one
      document per id. */
  ghost predicate RoomsUnique(rooms: seq<Room>) {
    && (forall c :: Count(rooms, RoomCallIs(c)) <= 1)
    && (forall i :: Count(rooms, RoomIdIs(i)) <= 1)
  }

  /** At most one Peer per (hunt, call, tab), and at most one document per id. */
  ghost predicate PeersUnique(peers: seq<Peer>) {
    && (forall h, c, t :: Count(peers, PeerTabIs(h, c, t)) <= 1)
    && (forall i :: Count(peers, PeerIdIs(i)) <= 1)
  }

  /** Every id in use, and every reference to a transport request, lies below the
      next id to be handed out. */
  ghost predicate IdsBelow(s: Store) {
    && (forall r {:trigger r in s.rooms} :: r in s.rooms ==> r.id < s.nextId)
    && (forall p {:trigger p in s.peers} :: p in s.peers ==> p.id < s.nextId)
    && (forall t {:trigger t in s.transportRequests} :: t in s.transportRequests ==> t.id < s.nextId)
    && (forall c {:trigger c in s.connectRequests} :: c in s.connectRequests ==> c.transportRequest < s.nextId)
    && (forall c {:trigger c in s.connectAcks} :: c in s.connectAcks ==> c.transportRequest < s.nextId)
    && (forall c {:trigger c in s.consumerAcks} :: c in s.consumerAcks ==> c.transportRequest < s.nextId)
    && (forall p {:trigger p in s.producerClients} :: p in s.producerClients ==> p.id < s.nextId)
  }

  ghost predicate Valid(s: Store) {
    RoomsUnique(s.rooms) && PeersUnique(s.peers) && IdsBelow(s)
  }

  /** `Rooms.insert(...)` under the unique index on `call`: rejected with a
      duplicate-key error when a Room for the call already exists. */
  function InsertRoom(s: Store, hunt: string, call: string, routedServer: string, createdBy: string): (r: Result<Store, CallError>)
    ensures r.Err? <==> exists room {:trigger room in s.rooms} :: room in s.rooms && room.call == call
    ensures r.Err? ==> r.error == DuplicateKey
    ensures r.Ok? ==> Room(s.nextId, hunt, call, routedServer, createdBy) in r.value.rooms
    ensures r.Ok? ==> forall room {:trigger room in r.value.rooms} :: room in r.value.rooms ==> room in s.rooms || room.call == call
  {
    if RoomFor(s.rooms, call).Some? then Err(DuplicateKey)
    else Ok(AddRoom(s, hunt, call, routedServer, createdBy))
  }

  /** The store with one more Room, under a fresh id, whatever the index says. */
  function AddRoom(s: Store, hunt: string, call: string, routedServer: string, createdBy: string): Store {
    s.(rooms := s.rooms + [Room(s.nextId, hunt, call, routedServer, createdBy)], nextId := s.nextId + 1)
  }

  /** `ignoringDuplicateKeyErrors(insert)`: a rejected insert counts as success and
      leaves the store as it was. Only applied to inserts whose one failure is a
      duplicate key. */
  function IgnoringDuplicateKeyErrors(before: Store, r: Result<Store, CallError>): Store
    requires r.Err? ==> r.error == DuplicateKey
  {
    match r
    case Ok(after) => after
    case Err(_) => before
  }

  /** A successful Room insert keeps the store valid and leaves exactly one Room
      for the call: the unique index is never violated. */
  lemma InsertRoomValid(s: Store, hunt: string, call: string, routedServer: string, createdBy: string)
    requires Valid(s)
    requires InsertRoom(s, hunt, call, routedServer, createdBy).Ok?
    ensures Valid(InsertRoom(s, hunt, call, routedServer, createdBy).value)
    ensures Count(InsertRoom(s, hunt, call, routedServer, createdBy).value.rooms, RoomCallIs(call)) == 1
  {
    var room := Room(s.nextId, hunt, call, routedServer, createdBy);
    var s' := InsertRoom(s, hunt, call, routedServer, createdBy).value;
    assert s'.rooms == s.rooms + [room];
    CountZero(s.rooms, RoomCallIs(call));
    CountZero(s.rooms, RoomIdIs(s.nextId));
    forall c
      ensures Count(s'.rooms, RoomCallIs(c)) <= 1
    {
      CountAppend(s.rooms, room, RoomCallIs(c));
    }
    forall i
      ensures Count(s'.rooms, RoomIdIs(i)) <= 1
    {
      CountAppend(s.rooms, room, RoomIdIs(i));
    }
    CountAppend(s.rooms, room, RoomCallIs(call));
  }

  /** When an equivalent Room (same call) is already present, the tolerant reinsert
      leaves the store unchanged. */
  lemma ReinsertExisting(s: Store, hunt: string, call: string, routedServer: string, createdBy: string)
    requires exists room {:trigger room in s.rooms} :: room in s.rooms && room.call == call
    ensures IgnoringDuplicateKeyErrors(s, InsertRoom(s, hunt, call, routedServer, createdBy)) == s
  {
  }

  /** Replaying a tolerant reinsert gives the same store as running it once. */
  lemma ReinsertTwice(s: Store, hunt: string, call: string, routedServer: string, createdBy: string)
    ensures var once := IgnoringDuplicateKeyErrors(s, InsertRoom(s, hunt, call, routedServer, createdBy));
            IgnoringDuplicateKeyErrors(once, InsertRoom(once, hunt, call, routedServer, createdBy)) == once
  {
    var once := IgnoringDuplicateKeyErrors(s, InsertRoom(s, hunt, call, routedServer, createdBy));
    assert exists room :: room in once.rooms && room.call == call;
  }

  /** Dropping documents from the Room and Peer collections keeps them unique. */
  lemma FilterKeepsUnique(rooms: seq<Room>, peers: seq<Peer>, fr: Room -> bool, fp: Peer -> bool)
    requires RoomsUnique(rooms) && PeersUnique(peers)
    ensures RoomsUnique(Filter(rooms, fr)) && PeersUnique(Filter(peers, fp))
  {
    forall c
      ensures Count(Filter(rooms, fr), RoomCallIs(c)) <= 1
    {
      CountFilterLe(rooms, fr, RoomCallIs(c));
    }
    forall i
      ensures Count(Filter(rooms, fr), RoomIdIs(i)) <= 1
    {
      CountFilterLe(rooms, fr, RoomIdIs(i));
    }
    forall h, c, t
      ensures Count(Filter(peers, fp), PeerTabIs(h, c, t)) <= 1
    {
      CountFilterLe(peers, fp, PeerTabIs(h, c, t));
    }
    forall i
      ensures Count(Filter(peers, fp), PeerIdIs(i)) <= 1
    {
      CountFilterLe(peers, fp, PeerIdIs(i));
    }
  }
}

=== FILE: common.dfy ===
/** Optional values and results with an error, shared by every module of the model.
    `Option` stands for JavaScript's `undefined`-or-value; `Result` for a call that
    either returns or throws one of a known set of errors. */
module Common {

  /** A value that may be absent (`undefined` / `null` in the source). */
  datatype Option<+T> = None | Some(value: T)

  /** The outcome of an operation that either succeeds or raises an error.
      Usable with `:-`, so an error short-circuits like a thrown exception. */
  datatype Result<+T, +E> = Ok(value: T) | Err(error: E) {

    predicate IsFailure() {
      Err?
    }

    function PropagateFailure<U>(): Result<U, E>
      requires Err?
    {
      Err(error)
    }

    function Extract(): T
      requires Ok?
    {
      value
    }
  }
}

=== FILE: discord.dfy ===
/** A linked Discord account, as the user model stores it. */
module Discord {

  datatype DiscordAccount = DiscordAccount(username: string, discriminator: string)
}

=== FILE: hunt_data.dfy ===
/** The hunt records the puzzle pages work with: tags, puzzles and guesses, plus the
    id-to-name index the pages build from the hunt's tag list. Dates are integer
    milliseconds. */
module HuntData {
  import opened Common

  datatype Tag = Tag(id: string, name: string)

  datatype Puzzle = Puzzle(
    id: string,
    title: string,
    url: string,
    answers: seq<string>,
    tags: seq<string>,
    expectedAnswerCount: int,
    createdAt: int)

  /** `computeSolvedness`'s three outcomes; the computation itself is a parameter
      wherever it is needed. */
  datatype Solvedness = Solved | Unsolved | NoAnswers

  /** `{ t._id: t.name }` built by assigning in list order: a later tag with the same
      id overwrites an earlier one. */
  function NameIndex(tags: seq<Tag>): (m: map<string, string>)
    ensures forall id {:trigger id in m} :: id in m <==> exists t {:trigger t in tags} :: t in tags && t.id == id
    decreases |tags|
  {
    if |tags| == 0 then map[]
    else
      var init := tags[..|tags| - 1];
      var last := tags[|tags| - 1];
      assert forall t :: t in tags <==> t in init || t == last;
      var m := NameIndex(init)[last.id := last.name];
      assert forall id :: id in m ==> exists t :: t in tags && t.id == id by {
        forall id | id in m
          ensures exists t :: t in tags && t.id == id
        {
          if id != last.id {
            var t :| t in init && t.id == id;
            assert t in tags;
          } else {
            assert last in tags;
          }
        }
      }
      m
  }

  /** The name the index gives an id is that of the last tag carrying it. */
  lemma {:induction false} NameIndexLast(tags: seq<Tag>, i: nat)
    requires i < |tags|
    requires forall j :: i < j < |tags| ==> tags[j].id != tags[i].id
    ensures tags[i].id in NameIndex(tags) && NameIndex(tags)[tags[i].id] == tags[i].name
    decreases |tags|
  {
    if i < |tags| - 1 {
      NameIndexLast(tags[..|tags| - 1], i);
    }
  }

  /** Every name in the index is the name of a tag with that id. */
  lemma {:induction false} NameIndexValue(tags: seq<Tag>, id: string)
    requires id in NameIndex(tags)
    ensures exists t {:trigger t in tags} :: t in tags && t.id == id && t.name == NameIndex(tags)[id]
    decreases |tags|
  {
    var init := tags[..|tags| - 1];
    var last := tags[|tags| - 1];
    assert last in tags;
    if id != last.id {
      NameIndexValue(init, id);
      var t :| t in init && t.id == id && t.name == NameIndex(init)[id];
      assert t in tags;
    }
  }
}

=== FILE: migration39.dfy ===
/** Migration 39, "promote profile fields to user top-level": every user that still
    carries a `profile` sub-document gets its six profile fields copied to the top
    level and the sub-document removed. */
module Migration39 {
  import opened Common
  import opened UserModel

  /** The two updates applied to one user with a profile: `$set` of the six fields
      (an absent profile field leaves the top-level field absent), then `$unset` of
      `profile`. A user without a profile is not selected. */
  function Promote(u: User): (r: User)
    ensures r.id == u.id && r.profile.None?
    ensures u.profile.None? ==> r == u
    ensures u.profile.Some? ==>
      && r.displayName == u.profile.value.displayName
      && r.googleAccount == u.profile.value.googleAccount
      && r.discordAccount == u.profile.value.discordAccount
      && r.phoneNumber == u.profile.value.phoneNumber
      && r.muteApplause == u.profile.value.muteApplause
      && r.dingwords == u.profile.value.dingwords
    ensures r.username == u.username && r.emails == u.emails && r.createdAt == u.createdAt
      && r.lastLogin == u.lastLogin && r.roles == u.roles && r.hunts == u.hunts
      && r.googleAccountId == u.googleAccountId
  {
    match u.profile
    case None => u
    case Some(p) =>
      u.(displayName := p.displayName, googleAccount := p.googleAccount, discordAccount := p.discordAccount,
         phoneNumber := p.phoneNumber, muteApplause := p.muteApplause, dingwords := p.dingwords)
       .(profile := None)
  }

  /** `up()`: every user document, in collection order. */
  function Up(users: seq<User>): (r: seq<User>)
    ensures |r| == |users|
    ensures forall i :: 0 <= i < |users| ==> r[i] == Promote(users[i])
  {
    seq(|users|, i requires 0 <= i < |users| => Promote(users[i]))
  }

  /** Where `up()` stopped: the first update is checked and cleaned against the
      `User` schema and throws for a profile it rejects, which ends the loop. */
  datatype Aborted = Aborted(at: nat, users: seq<User>)

  /** `up()` with the schema check of the first update as a parameter (`accepted`
      says whether the `$set` of a profile's fields passes). `RunUpFacts` states
      where it stops. */
  function RunUp(users: seq<User>, accepted: LegacyProfile -> bool): (r: Result<seq<User>, Aborted>)
    ensures r.Ok? ==> |r.value| == |users|
    ensures r.Err? ==> r.error.at < |users| && |r.error.users| == |users|
    decreases |users|
  {
    if |users| == 0 then Ok([])
    else if users[0].profile.Some? && !accepted(users[0].profile.value) then Err(Aborted(0, users))
    else
      match RunUp(users[1..], accepted)
      case Ok(rest) => Ok([Promote(users[0])] + rest)
      case Err(a) => Err(Aborted(a.at + 1, [Promote(users[0])] + a.users))
  }

  /** The run completes exactly when the schema check accepts every selected
      profile, and then gives `Up`. */
  lemma {:induction false} RunUpCompletes(users: seq<User>, accepted: LegacyProfile -> bool)
    ensures RunUp(users, accepted).Ok? <==>
      forall i :: 0 <= i < |users| && users[i].profile.Some? ==> accepted(users[i].profile.value)
    ensures RunUp(users, accepted).Ok? ==> RunUp(users, accepted).value == Up(users)
    decreases |users|
  {
    if |users| > 0 && !(users[0].profile.Some? && !accepted(users[0].profile.value)) {
      var tail := users[1..];
      RunUpCompletes(tail, accepted);
      if RunUp(tail, accepted).Ok? {
        var r := RunUp(users, accepted).value;
        forall j | 0 <= j < |users|
          ensures r[j] == Up(users)[j]
        {
          if j > 0 {
            assert users[j] == tail[j - 1];
            assert r[j] == Up(tail)[j - 1];
          }
        }
      }
    }
  }

  /** Otherwise the run stops at the first rejected profile: the users before it are
      promoted, it and every later user are left as they were, and the error names
      its position. */
  lemma {:induction false} RunUpStops(users: seq<User>, accepted: LegacyProfile -> bool)
    requires RunUp(users, accepted).Err?
    ensures var at := RunUp(users, accepted).error.at;
      && users[at].profile.Some? && !accepted(users[at].profile.value)
      && (forall j :: 0 <= j < at && users[j].profile.Some? ==> accepted(users[j].profile.value))
    ensures var at := RunUp(users, accepted).error.at;
      var after := RunUp(users, accepted).error.users;
      && (forall j :: 0 <= j < at ==> after[j] == Promote(users[j]))
      && (forall j :: at <= j < |users| ==> after[j] == users[j])
    decreases |users|
  {
    if !(users[0].profile.Some? && !accepted(users[0].profile.value)) {
      var tail := users[1..];
      RunUpStops(tail, accepted);
      assert forall i :: 0 < i < |users| ==> users[i] == tail[i - 1];
    }
  }

  /** After the migration no user has a profile, and running it again changes
      nothing. */
  lemma UpIdempotent(users: seq<User>)
    ensures forall u {:trigger u in Up(users)} :: u in Up(users) ==> u.profile.None?
    ensures Up(Up(users)) == Up(users)
  {
    forall u | u in Up(users)
      ensures u.profile.None?
    {
      var i :| 0 <= i < |users| && Up(users)[i] == u;
    }
  }

  /** A promoted user passes the schema when the user did and the profile's strings
      are non-empty and its Discord account valid. */
  lemma PromoteKeepsValid(u: User, v: Validators)
    requires ValidUser(u, v)
    requires u.profile.Some? ==>
      && OptionalOk(u.profile.value.displayName, v.nonEmpty)
      && OptionalOk(u.profile.value.googleAccount, v.nonEmpty)
      && OptionalOk(u.profile.value.phoneNumber, v.nonEmpty)
      && OptionalAllOk(u.profile.value.dingwords, v.nonEmpty)
      && (u.profile.value.discordAccount.None? || v.discordAccount(u.profile.value.discordAccount.value))
    ensures ValidUser(Promote(u), v)
  {
    forall f: Field
      ensures FieldOk(Promote(u), v, f)
    {
      assert FieldOk(u, v, f);
    }
  }
}

=== FILE: negotiation.dfy ===
/** The guards in front of media negotiation (`mediasoup:transports` and
    `mediasoup:producer`) and the clean-up their stop handlers run. A successful
    subscription inserts one request document; stopping it removes that document and,
    for a transport, every negotiation record correlated with it. */
module Negotiation {
  import opened Common
  import opened Seqs
  import opened CallStore

  /** What the handlers know besides their arguments: the logged-in user (if any),
      the `disable.webrtc` flag and this server's id. */
  datatype HandlerContext = HandlerContext(userId: Option<string>, webrtcDisabled: bool, serverId: string)

  function RouterCallIs(call: string): Router -> bool {
    (r: Router) => r.call == call
  }

  function TransportIdIs(id: nat): Transport -> bool {
    (t: Transport) => t.id == id
  }

  function RequestIdIs(id: nat): TransportRequest -> bool {
    (t: TransportRequest) => t.id == id
  }

  function ConnectRequestFor(tr: nat): ConnectRequest -> bool {
    (c: ConnectRequest) => c.transportRequest == tr
  }

  function ConnectAckFor(tr: nat): ConnectAck -> bool {
    (c: ConnectAck) => c.transportRequest == tr
  }

  function ConsumerAckFor(tr: nat): ConsumerAck -> bool {
    (c: ConsumerAck) => c.transportRequest == tr
  }

  function ProducerIdIs(id: nat): ProducerClient -> bool {
    (p: ProducerClient) => p.id == id
  }

  /** `mediasoup:transports`: the checks in order (logged in, WebRTC enabled, the
      Peer exists, its call has a Router, the caller created the Peer), then one
      TransportRequest addressed to the Router's server. Returns the new store and
      the request's id. */
  function RequestTransport(s: Store, ctx: HandlerContext, peerId: nat, rtpCapabilities: string): (r: Result<(Store, nat), CallError>)
    ensures ctx.userId.None? ==> r == Err(NotLoggedIn)
    ensures ctx.userId.Some? && ctx.webrtcDisabled ==> r == Err(WebRtcDisabled)
    ensures ctx.userId.Some? && !ctx.webrtcDisabled && FindFirst(s.peers, PeerIdIs(peerId)).None? ==> r == Err(PeerNotFound)
    ensures (ctx.userId.Some? && !ctx.webrtcDisabled && FindFirst(s.peers, PeerIdIs(peerId)).Some?
      && FindFirst(s.routers, RouterCallIs(FindFirst(s.peers, PeerIdIs(peerId)).value.call)).None?) ==> r == Err(RouterNotFound)
    ensures (ctx.userId.Some? && !ctx.webrtcDisabled && FindFirst(s.peers, PeerIdIs(peerId)).Some?
      && FindFirst(s.routers, RouterCallIs(FindFirst(s.peers, PeerIdIs(peerId)).value.call)).Some?
      && FindFirst(s.peers, PeerIdIs(peerId)).value.createdBy != ctx.userId.value) ==> r == Err(NotAllowed)
    ensures r.Ok? <==>
      && ctx.userId.Some? && !ctx.webrtcDisabled
      && FindFirst(s.peers, PeerIdIs(peerId)).Some?
      && FindFirst(s.routers, RouterCallIs(FindFirst(s.peers, PeerIdIs(peerId)).value.call)).Some?
      && FindFirst(s.peers, PeerIdIs(peerId)).value.createdBy == ctx.userId.value
    ensures r.Ok? ==>
      var (s', id) := r.value;
      && id == s.nextId && s'.nextId == s.nextId + 1
      && s' == s.(transportRequests := s'.transportRequests, nextId := s'.nextId)
      && |s'.transportRequests| == |s.transportRequests| + 1
      && (forall t {:trigger t in s.transportRequests} :: t in s.transportRequests ==> t in s'.transportRequests)
      && (exists t {:trigger t in s'.transportRequests} :: t in s'.transportRequests && t.id == id)
      && (forall t {:trigger t in s'.transportRequests} :: t in s'.transportRequests && t !in s.transportRequests ==>
            && t.id == id && t.peer == peerId && t.createdServer == ctx.serverId && t.rtpCapabilities == rtpCapabilities
            && t.call == FindFirst(s.peers, PeerIdIs(peerId)).value.call
            && t.routedServer == FindFirst(s.routers, RouterCallIs(t.call)).value.createdServer)
  {
    if ctx.userId.None? then Err(NotLoggedIn)
    else if ctx.webrtcDisabled then Err(WebRtcDisabled)
    else
      var peer := FindFirst(s.peers, PeerIdIs(peerId));
      if peer.None? then Err(PeerNotFound)
      else
        var router := FindFirst(s.routers, RouterCallIs(peer.value.call));
        if router.None? then Err(RouterNotFound)
        else if peer.value.createdBy != ctx.userId.value then Err(NotAllowed)
        else
          var request := TransportRequest(s.nextId, ctx.serverId, router.value.createdServer, peer.value.call, peer.value.id, rtpCapabilities);
          assert forall t :: t in s.transportRequests + [request] <==> t in s.transportRequests || t == request;
          assert request in s.transportRequests + [request];
          Ok((s.(transportRequests := s.transportRequests + [request], nextId := s.nextId + 1), s.nextId))
  }

  /** The transport subscription's stop handler: remove the request and every
      connect request, connect ack and consumer ack correlated with it. */
  function StopTransport(s: Store, tr: nat): (r: Store)
    ensures r == s.(transportRequests := r.transportRequests, connectRequests := r.connectRequests,
                    connectAcks := r.connectAcks, consumerAcks := r.consumerAcks)
    ensures forall t {:trigger t in r.transportRequests} :: t in r.transportRequests <==> t in s.transportRequests && t.id != tr
    ensures forall c {:trigger c in r.connectRequests} :: c in r.connectRequests <==> c in s.connectRequests && c.transportRequest != tr
    ensures forall c {:trigger c in r.connectAcks} :: c in r.connectAcks <==> c in s.connectAcks && c.transportRequest != tr
    ensures forall c {:trigger c in r.consumerAcks} :: c in r.consumerAcks <==> c in s.consumerAcks && c.transportRequest != tr
  {
    s.(transportRequests := Filter(s.transportRequests, Not(RequestIdIs(tr))),
       connectRequests := Filter(s.connectRequests, Not(ConnectRequestFor(tr))),
       connectAcks := Filter(s.connectAcks, Not(ConnectAckFor(tr))),
       consumerAcks := Filter(s.consumerAcks, Not(ConsumerAckFor(tr))))
  }

  /** `mediasoup:producer`: the checks in order (logged in, WebRTC enabled, the
      Transport exists, the caller created it), then one ProducerClient addressed to
      the Transport's server and correlated with its request. */
  function RequestProducer(s: Store, ctx: HandlerContext, transportId: nat, trackId: string, kind: MediaKind, rtpParameters: string, paused: bool): (r: Result<(Store, nat), CallError>)
    ensures ctx.userId.None? ==> r == Err(NotLoggedIn)
    ensures ctx.userId.Some? && ctx.webrtcDisabled ==> r == Err(WebRtcDisabled)
    ensures ctx.userId.Some? && !ctx.webrtcDisabled && FindFirst(s.transports, TransportIdIs(transportId)).None? ==> r == Err(TransportNotFound)
    ensures (ctx.userId.Some? && !ctx.webrtcDisabled && FindFirst(s.transports, TransportIdIs(transportId)).Some?
      && FindFirst(s.transports, TransportIdIs(transportId)).value.createdBy != ctx.userId.value) ==> r == Err(NotAllowed)
    ensures r.Ok? <==>
      && ctx.userId.Some? && !ctx.webrtcDisabled
      && FindFirst(s.transports, TransportIdIs(transportId)).Some?
      && FindFirst(s.transports, TransportIdIs(transportId)).value.createdBy == ctx.userId.value
    ensures r.Ok? ==>
      var (s', id) := r.value;
      && id == s.nextId && s'.nextId == s.nextId + 1
      && s' == s.(producerClients := s'.producerClients, nextId := s'.nextId)
      && |s'.producerClients| == |s.producerClients| + 1
      && (forall p {:trigger p in s.producerClients} :: p in s.producerClients ==> p in s'.producerClients)
      && (exists p {:trigger p in s'.producerClients} :: p in s'.producerClients && p.id == id)
      && (forall p {:trigger p in s'.producerClients} :: p in s'.producerClients && p !in s.producerClients ==>
            && p.id == id && p.trackId == trackId && p.kind == kind && p.rtpParameters == rtpParameters && p.paused == paused
            && p.createdServer == ctx.serverId && p.transport == transportId
            && var t := FindFirst(s.transports, TransportIdIs(transportId)).value;
               p.routedServer == t.createdServer && p.call == t.call && p.peer == t.peer && p.transportRequest == t.transportRequest)
  {
    if ctx.userId.None? then Err(NotLoggedIn)
    else if ctx.webrtcDisabled then Err(WebRtcDisabled)
    else
      var transport := FindFirst(s.transports, TransportIdIs(transportId));
      if transport.None? then Err(TransportNotFound)
      else if transport.value.createdBy != ctx.userId.value then Err(NotAllowed)
      else
        var t := transport.value;
        var producer := ProducerClient(s.nextId, ctx.serverId, t.createdServer, t.call, t.peer, t.id, t.transportRequest, trackId, kind, rtpParameters, paused);
        assert forall p :: p in s.producerClients + [producer] <==> p in s.producerClients || p == producer;
        assert producer in s.producerClients + [producer];
        Ok((s.(producerClients := s.producerClients + [producer], nextId := s.nextId + 1), s.nextId))
  }

  /** The producer subscription's stop handler: remove the ProducerClient. */
  function StopProducer(s: Store, id: nat): (r: Store)
    ensures r == s.(producerClients := r.producerClients)
    ensures forall p {:trigger p in r.producerClients} :: p in r.producerClients <==> p in s.producerClients && p.id != id
  {
    s.(producerClients := Filter(s.producerClients, Not(ProducerIdIs(id))))
  }

  /** Stopping a transport subscription right after it started gives back the store
      it started from, except that the id counter has moved on: nothing else
      referred to the fresh request. */
  lemma TransportThenStop(s: Store, ctx: HandlerContext, peerId: nat, rtpCapabilities: string)
    requires IdsBelow(s)
    requires RequestTransport(s, ctx, peerId, rtpCapabilities).Ok?
    ensures var (s', id) := RequestTransport(s, ctx, peerId, rtpCapabilities).value;
      StopTransport(s', id) == s.(nextId := s.nextId + 1)
  {
    var (s', id) := RequestTransport(s, ctx, peerId, rtpCapabilities).value;
    var request := s'.transportRequests[|s'.transportRequests| - 1];
    assert s'.transportRequests == s.transportRequests + [request];
    FilterAppend(s.transportRequests, request, Not(RequestIdIs(id)));
    FilterAll(s.transportRequests, Not(RequestIdIs(id)));
    FilterAll(s.connectRequests, Not(ConnectRequestFor(id)));
    FilterAll(s.connectAcks, Not(ConnectAckFor(id)));
    FilterAll(s.consumerAcks, Not(ConsumerAckFor(id)));
  }

  /** Stopping a producer subscription right after it started gives back the store
      it started from, except for the id counter. */
  lemma ProducerThenStop(s: Store, ctx: HandlerContext, transportId: nat, trackId: string, kind: MediaKind, rtpParameters: string, paused: bool)
    requires IdsBelow(s)
    requires RequestProducer(s, ctx, transportId, trackId, kind, rtpParameters, paused).Ok?
    ensures var (s', id) := RequestProducer(s, ctx, transportId, trackId, kind, rtpParameters, paused).value;
      StopProducer(s', id) == s.(nextId := s.nextId + 1)
  {
    var (s', id) := RequestProducer(s, ctx, transportId, trackId, kind, rtpParameters, paused).value;
    var producer := s'.producerClients[|s'.producerClients| - 1];
    assert s'.producerClients == s.producerClients + [producer];
    FilterAppend(s.producerClients, producer, Not(ProducerIdIs(id)));
    FilterAll(s.producerClients, Not(ProducerIdIs(id)));
  }

  /** Both subscriptions keep the store valid, and so do their stop handlers. */
  lemma NegotiationValid(s: Store, ctx: HandlerContext, peerId: nat, transportId: nat, rtpCapabilities: string,
                         trackId: string, kind: MediaKind, rtpParameters: string, paused: bool, tr: nat, producerId: nat)
    requires Valid(s)
    ensures RequestTransport(s, ctx, peerId, rtpCapabilities).Ok? ==> Valid(RequestTransport(s, ctx, peerId, rtpCapabilities).value.0)
    ensures RequestProducer(s, ctx, transportId, trackId, kind, rtpParameters, paused).Ok? ==>
      Valid(RequestProducer(s, ctx, transportId, trackId, kind, rtpParameters, paused).value.0)
    ensures Valid(StopTransport(s, tr)) && Valid(StopProducer(s, producerId))
  {
  }
}

=== FILE: profile_search.dfy ===
/** The hunter list's search box: which profiles a search string keeps, and the name
    shown for each. */
module ProfileSearch {
  import opened Common
  import opened Seqs
  import opened Text
  import opened Discord

  datatype Profile = Profile(
    id: string,
    displayName: string,
    primaryEmail: string,
    phoneNumber: Option<string>,
    discordAccount: Option<DiscordAccount>)

  /** `username.toLowerCase() + '#' + discriminator`; the discriminator keeps its
      case. */
  function DiscordTag(d: DiscordAccount): string {
    Lower(d.username) + "#" + d.discriminator
  }

  /** One lowercased key against one profile: a substring of the lowercased display
      name, primary email or (non-empty) phone number, of the Discord tag, or of one
      of the profile's lowercased roles, when the role map has an entry for it. */
  predicate ProfileKeyMatches(roles: Option<map<string, seq<string>>>, p: Profile, key: string) {
    || Contains(Lower(p.displayName), key)
    || Contains(Lower(p.primaryEmail), key)
    || (Truthy(p.phoneNumber) && Contains(Lower(p.phoneNumber.value), key))
    || (p.discordAccount.Some? && Contains(DiscordTag(p.discordAccount.value), key))
    || (roles.Some? && p.id in roles.value && exists role :: role in roles.value[p.id] && Contains(Lower(role), key))
  }

  /** The keys the matcher checks: non-empty pieces of the string split on single
      spaces, lowercased. */
  function ProfileKeys(searchString: string): seq<string> {
    LowerAll(SearchKeys(searchString))
  }

  /** The matcher's loop: stop at the first key nothing matches. */
  method IsInteresting(roles: Option<map<string, seq<string>>>, searchString: string, p: Profile) returns (ok: bool)
    ensures ok <==> forall k {:trigger k in ProfileKeys(searchString)} :: k in ProfileKeys(searchString) ==> ProfileKeyMatches(roles, p, k)
  {
    var toMatch := ProfileKeys(searchString);
    var i := 0;
    while i < |toMatch|
      invariant 0 <= i <= |toMatch|
      invariant forall j :: 0 <= j < i ==> ProfileKeyMatches(roles, p, toMatch[j])
    {
      if !ProfileKeyMatches(roles, p, toMatch[i]) {
        assert toMatch[i] in toMatch;
        return false;
      }
      i := i + 1;
    }
    return true;
  }

  /** The matcher as a predicate. */
  function ProfileMatcher(roles: Option<map<string, seq<string>>>, searchString: string): Profile -> bool {
    var keys := ProfileKeys(searchString);
    (p: Profile) => forall k :: k in keys ==> ProfileKeyMatches(roles, p, k)
  }

  /** `profiles.filter(matcher)` */
  function MatchingProfiles(roles: Option<map<string, seq<string>>>, searchString: string, profiles: seq<Profile>): (r: seq<Profile>)
    ensures IsSubsequence(r, profiles)
    ensures forall p {:trigger p in r} :: p in r <==> p in profiles && ProfileMatcher(roles, searchString)(p)
  {
    FilterIsSubsequence(profiles, ProfileMatcher(roles, searchString));
    Filter(profiles, ProfileMatcher(roles, searchString))
  }

  /** An empty or all-space search string keeps every profile. */
  lemma ProfilesSpacesOnly(roles: Option<map<string, seq<string>>>, searchString: string, profiles: seq<Profile>)
    requires forall i :: 0 <= i < |searchString| ==> searchString[i] == Space
    ensures MatchingProfiles(roles, searchString, profiles) == profiles
  {
    SplitSeparatorsOnly(searchString, Space);
    CountZero(Split(searchString, Space), NonEmptyKey());
    assert ProfileKeys(searchString) == [];
    FilterAll(profiles, ProfileMatcher(roles, searchString));
  }

  /** A profile without a phone number, Discord account or roles matches exactly
      when every key is in its display name or primary email. */
  lemma AbsentFieldsNeverMatch(roles: Option<map<string, seq<string>>>, searchString: string, p: Profile)
    requires !Truthy(p.phoneNumber) && p.discordAccount.None?
    requires roles.None? || p.id !in roles.value
    ensures ProfileMatcher(roles, searchString)(p) <==>
      forall k {:trigger k in ProfileKeys(searchString)} :: k in ProfileKeys(searchString) ==>
        Contains(Lower(p.displayName), k) || Contains(Lower(p.primaryEmail), k)
  {
  }

  /** The hunter list ignores the case of the search string. */
  lemma ProfilesCaseInsensitive(roles: Option<map<string, seq<string>>>, q1: string, q2: string, profiles: seq<Profile>)
    requires Lower(q1) == Lower(q2)
    ensures MatchingProfiles(roles, q1, profiles) == MatchingProfiles(roles, q2, profiles)
  {
    SplitLower(q1);
    SplitLower(q2);
    LowerAllFilter(Split(q1, Space));
    LowerAllFilter(Split(q2, Space));
    assert ProfileKeys(q1) == ProfileKeys(q2);
  }

  /** The name shown for a profile: its display name, or a placeholder when that is
      empty. */
  function ShownName(p: Profile): (r: string)
    ensures r != ""
    ensures p.displayName != "" ==> r == p.displayName
  {
    if p.displayName != "" then p.displayName else "<no name provided>"
  }
}

=== FILE: puzzle_form.dfy ===
/** The add/edit puzzle dialog: its state, its change handlers, the payload it
    submits and what it does with the answer, plus the puzzle list's `onAdd`, which
    refuses a payload without a document type. */
module PuzzleForm {
  import opened Common
  import opened HuntData
  import opened Text

  datatype SubmitState = Idle | Submitting | Failed

  /** The dialog's state. Tag names are optional: the edit form looks the puzzle's
      tag ids up by name and an unknown id gives `undefined`. */
  datatype FormState = FormState(
    submitState: SubmitState,
    errorMessage: string,
    titleDirty: bool,
    urlDirty: bool,
    tagsDirty: bool,
    title: string,
    url: string,
    tags: seq<Option<string>>,
    docType: Option<string>)

  /** `tagNamesForIds`: each id's name in the hunt's tag list, or nothing. */
  function TagNamesForIds(tags: seq<Tag>, ids: seq<string>): (r: seq<Option<string>>)
    ensures |r| == |ids|
    ensures forall i :: 0 <= i < |ids| ==> (r[i].Some? <==> exists t {:trigger t in tags} :: t in tags && t.id == ids[i])
  {
    var index := NameIndex(tags);
    seq(|ids|, i requires 0 <= i < |ids| => if ids[i] in index then Some(index[ids[i]]) else None)
  }

  /** The names found are the names of tags carrying those ids; an id carried by one
      tag only gets that tag's name. */
  lemma TagNamesForIdsNames(tags: seq<Tag>, ids: seq<string>, i: nat)
    requires i < |ids|
    ensures TagNamesForIds(tags, ids)[i].Some? ==>
      exists t {:trigger t in tags} :: t in tags && t.id == ids[i] && t.name == TagNamesForIds(tags, ids)[i].value
    ensures forall j :: 0 <= j < |tags| && tags[j].id == ids[i] && (forall k :: 0 <= k < |tags| && tags[k].id == ids[i] ==> k == j) ==>
      TagNamesForIds(tags, ids)[i] == Some(tags[j].name)
  {
    if TagNamesForIds(tags, ids)[i].Some? {
      NameIndexValue(tags, ids[i]);
    }
    forall j | 0 <= j < |tags| && tags[j].id == ids[i] && (forall k :: 0 <= k < |tags| && tags[k].id == ids[i] ==> k == j)
      ensures TagNamesForIds(tags, ids)[i] == Some(tags[j].name)
    {
      NameIndexLast(tags, j);
    }
  }

  /** The constructor: an edit form starts from the puzzle's title, url and tag names
      with no document type; an add form starts empty with a spreadsheet. */
  function InitialState(puzzle: Option<Puzzle>, tags: seq<Tag>): (r: FormState)
    ensures r.submitState == Idle && r.errorMessage == ""
    ensures !r.titleDirty && !r.urlDirty && !r.tagsDirty
    ensures puzzle.Some? ==>
      r.title == puzzle.value.title && r.url == puzzle.value.url
      && r.tags == TagNamesForIds(tags, puzzle.value.tags) && r.docType.None?
    ensures puzzle.None? ==> r.title == "" && r.url == "" && r.tags == [] && r.docType == Some("spreadsheet")
  {
    match puzzle
    case Some(p) => FormState(Idle, "", false, false, false, p.title, p.url, TagNamesForIds(tags, p.tags), None)
    case None => FormState(Idle, "", false, false, false, "", "", [], Some("spreadsheet"))
  }

  /** One user edit: typing a title or url, choosing tags, or picking a document
      type. */
  datatype Edit = EditTitle(title: string) | EditUrl(url: string) | EditTags(names: seq<string>) | EditDocType(docType: string)

  /** The change handlers: each sets its field, and the first three mark it dirty. */
  function OnEdit(st: FormState, e: Edit): (r: FormState)
    ensures r.submitState == st.submitState && r.errorMessage == st.errorMessage
    ensures e.EditTitle? ==> r == st.(title := e.title, titleDirty := true)
    ensures e.EditUrl? ==> r == st.(url := e.url, urlDirty := true)
    ensures e.EditTags? ==>
      r.tagsDirty && |r.tags| == |e.names|
      && (forall i :: 0 <= i < |e.names| ==> r.tags[i] == Some(e.names[i]))
      && r == st.(tags := r.tags, tagsDirty := true)
    ensures e.EditDocType? ==> r == st.(docType := Some(e.docType))
  {
    match e
    case EditTitle(t) => st.(title := t, titleDirty := true)
    case EditUrl(u) => st.(url := u, urlDirty := true)
    case EditTags(names) => st.(tags := seq(|names|, i requires 0 <= i < |names| => Some(names[i])), tagsDirty := true)
    case EditDocType(d) => st.(docType := Some(d))
  }

  /** A run of edits, applied in order. */
  function ApplyEdits(st: FormState, edits: seq<Edit>): FormState
    decreases |edits|
  {
    if |edits| == 0 then st else ApplyEdits(OnEdit(st, edits[0]), edits[1..])
  }

  /** Only a document-type edit touches the document type. */
  predicate KeepsDocType(edits: seq<Edit>) {
    forall e :: e in edits ==> !e.EditDocType?
  }

  /** The value shown in the title box: the puzzle's own title until the user edits
      it (on the edit form), otherwise the state's. */
  function CurrentTitle(st: FormState, puzzle: Option<Puzzle>): (r: string)
    ensures st.titleDirty || puzzle.None? ==> r == st.title
    ensures !st.titleDirty && puzzle.Some? ==> r == puzzle.value.title
  {
    if !st.titleDirty && puzzle.Some? then puzzle.value.title else st.title
  }

  function CurrentUrl(st: FormState, puzzle: Option<Puzzle>): (r: string)
    ensures st.urlDirty || puzzle.None? ==> r == st.url
    ensures !st.urlDirty && puzzle.Some? ==> r == puzzle.value.url
  {
    if !st.urlDirty && puzzle.Some? then puzzle.value.url else st.url
  }

  function CurrentTags(st: FormState, puzzle: Option<Puzzle>, tags: seq<Tag>): (r: seq<Option<string>>)
    ensures st.tagsDirty || puzzle.None? ==> r == st.tags
    ensures !st.tagsDirty && puzzle.Some? ==> r == TagNamesForIds(tags, puzzle.value.tags)
  {
    if !st.tagsDirty && puzzle.Some? then TagNamesForIds(tags, puzzle.value.tags) else st.tags
  }

  /** What the dialog hands to its `onSubmit`. */
  datatype Payload = Payload(hunt: string, title: string, url: string, tags: seq<Option<string>>, docType: Option<string>)

  /** `onFormSubmit`: the dialog goes to submitting and sends the state's title, url
      and tags, plus the document type only when it is truthy. */
  function OnFormSubmit(st: FormState, huntId: string): (r: (FormState, Payload))
    ensures r.0 == st.(submitState := Submitting)
    ensures r.1.hunt == huntId && r.1.title == st.title && r.1.url == st.url && r.1.tags == st.tags
    ensures r.1.docType.Some? <==> Truthy(st.docType)
    ensures r.1.docType.Some? ==> r.1.docType == st.docType
  {
    (st.(submitState := Submitting),
     Payload(huntId, st.title, st.url, st.tags, if Truthy(st.docType) then st.docType else None))
  }

  /** The `onSubmit` callback: an error is shown and the dialog stays open; success
      clears the error and the dirty flags and closes the dialog (the returned flag
      says whether the dialog's own callback runs). */
  function OnSubmitResult(st: FormState, error: Option<string>): (r: (FormState, bool))
    ensures r.1 <==> error.None?
    ensures error.Some? ==> r.0 == st.(submitState := Failed, errorMessage := error.value)
    ensures error.None? ==>
      r.0.submitState == Idle && r.0.errorMessage == ""
      && !r.0.titleDirty && !r.0.urlDirty && !r.0.tagsDirty
      && r.0.title == st.title && r.0.url == st.url && r.0.tags == st.tags && r.0.docType == st.docType
  {
    match error
    case Some(message) => (st.(submitState := Failed, errorMessage := message), false)
    case None => (st.(submitState := Idle, errorMessage := "", titleDirty := false, urlDirty := false, tagsDirty := false), true)
  }

  /** Edits never change the submit state or the error shown, and a run without a
      document-type edit keeps the document type. */
  lemma {:induction false} ApplyEditsKeeps(st: FormState, edits: seq<Edit>)
    ensures ApplyEdits(st, edits).submitState == st.submitState
    ensures ApplyEdits(st, edits).errorMessage == st.errorMessage
    ensures KeepsDocType(edits) ==> ApplyEdits(st, edits).docType == st.docType
    decreases |edits|
  {
    if |edits| > 0 {
      ApplyEditsKeeps(OnEdit(st, edits[0]), edits[1..]);
      if KeepsDocType(edits) {
        assert edits[0] in edits;
        assert forall e :: e in edits[1..] ==> e in edits;
      }
    }
  }

  /** While the dialog is open on the puzzle it was made for, the boxes show exactly
      what a submission would send: before an edit both are the puzzle's values,
      after it both are the user's. */
  lemma {:induction false} ShownIsSubmitted(p: Puzzle, tags: seq<Tag>, edits: seq<Edit>)
    ensures var st := ApplyEdits(InitialState(Some(p), tags), edits);
      CurrentTitle(st, Some(p)) == st.title && CurrentUrl(st, Some(p)) == st.url
        && CurrentTags(st, Some(p), tags) == st.tags
  {
    ShownIsSubmittedFrom(InitialState(Some(p), tags), p, tags, edits);
  }

  /** The dialog stays mounted while its puzzle is edited elsewhere, and renders the
      live puzzle `live` (and the live tag list), while a field the user has not
      edited still holds, and sends, the value read when the dialog was built. So a
      box shows what a submission sends exactly when the user edited that field or
      its live value still equals the one the dialog was built from. */
  lemma ShownIsSubmittedLive(p: Puzzle, live: Puzzle, tags: seq<Tag>, liveTags: seq<Tag>, edits: seq<Edit>, huntId: string)
    ensures var st := ApplyEdits(InitialState(Some(p), tags), edits);
      var sent := OnFormSubmit(st, huntId).1;
      && (CurrentTitle(st, Some(live)) == sent.title <==> st.titleDirty || live.title == p.title)
      && (CurrentUrl(st, Some(live)) == sent.url <==> st.urlDirty || live.url == p.url)
      && (CurrentTags(st, Some(live), liveTags) == sent.tags <==>
            st.tagsDirty || TagNamesForIds(liveTags, live.tags) == TagNamesForIds(tags, p.tags))
  {
    ShownIsSubmittedFrom(InitialState(Some(p), tags), p, tags, edits);
  }

  /** Renaming the puzzle elsewhere and then editing only its url in the dialog shows
      the new title but sends the old one. */
  lemma StaleTitleSent(p: Puzzle, live: Puzzle, tags: seq<Tag>, url: string, huntId: string)
    requires live.title != p.title
    ensures var st := ApplyEdits(InitialState(Some(p), tags), [EditUrl(url)]);
      && CurrentTitle(st, Some(live)) == live.title
      && OnFormSubmit(st, huntId).1.title == p.title
      && OnFormSubmit(st, huntId).1.url == url
  {
  }

  /** The invariant behind `ShownIsSubmitted`: a field that is not dirty still holds
      the puzzle's value. */
  ghost predicate CleanFieldsMatch(st: FormState, p: Puzzle, tags: seq<Tag>) {
    && (!st.titleDirty ==> st.title == p.title)
    && (!st.urlDirty ==> st.url == p.url)
    && (!st.tagsDirty ==> st.tags == TagNamesForIds(tags, p.tags))
  }

  lemma {:induction false} ShownIsSubmittedFrom(st: FormState, p: Puzzle, tags: seq<Tag>, edits: seq<Edit>)
    requires CleanFieldsMatch(st, p, tags)
    ensures CleanFieldsMatch(ApplyEdits(st, edits), p, tags)
    ensures var r := ApplyEdits(st, edits);
      CurrentTitle(r, Some(p)) == r.title && CurrentUrl(r, Some(p)) == r.url
        && CurrentTags(r, Some(p), tags) == r.tags
    decreases |edits|
  {
    if |edits| > 0 {
      ShownIsSubmittedFrom(OnEdit(st, edits[0]), p, tags, edits[1..]);
    }
  }

  /** A successful save leaves the dialog as if freshly opened on the values just
      saved: nothing is dirty and no error is shown. */
  lemma SaveThenClean(st: FormState, huntId: string)
    ensures var (st1, payload) := OnFormSubmit(st, huntId);
      var (st2, closed) := OnSubmitResult(st1, None);
      closed && st2.submitState == Idle && !st2.titleDirty && !st2.urlDirty && !st2.tagsDirty
        && st2.title == payload.title && st2.url == payload.url && st2.tags == payload.tags
  {
  }
}

=== FILE: puzzle_page.dfy ===
/** The puzzle page's helpers: finding the puzzle by id, the chat history's sender
    headers, and the guess dialog's input normalisation and submit decision. */
module PuzzlePage {
  import opened Common
  import opened Seqs
  import opened Text
  import opened HuntData

  /** `findPuzzleById`: the first puzzle in the list with the id, if any. */
  method FindPuzzleById(puzzles: seq<Puzzle>, id: string) returns (r: Option<Puzzle>)
    ensures r.None? <==> forall i :: 0 <= i < |puzzles| ==> puzzles[i].id != id
    ensures r.Some? ==>
      exists i :: 0 <= i < |puzzles| && puzzles[i] == r.value && r.value.id == id
        && forall j :: 0 <= j < i ==> puzzles[j].id != id
  {
    var i := 0;
    while i < |puzzles|
      invariant 0 <= i <= |puzzles|
      invariant forall j :: 0 <= j < i ==> puzzles[j].id != id
    {
      if puzzles[i].id == id {
        return Some(puzzles[i]);
      }
      i := i + 1;
    }
    return None;
  }

  datatype ChatMessage = ChatMessage(id: string, sender: Option<string>, timestamp: int)

  /** Within this many milliseconds of the previous message, a message from the same
      sender is shown without a header. */
  const SuppressWindow: int := 60000

  /** The name shown for messages without a sender. */
  const SystemSenderName: string := "jolly-roger"

  /** Message `i` is shown without sender and time: it is not the first, the
      previous message has the same sender (both absent counts as the same) and was
      sent less than a minute before. */
  predicate SuppressSender(messages: seq<ChatMessage>, i: nat)
    requires i < |messages|
  {
    i > 0 && messages[i - 1].sender == messages[i].sender
      && messages[i - 1].timestamp + SuppressWindow > messages[i].timestamp
  }

  /** A message without a sender is a system message. */
  predicate IsSystemMessage(msg: ChatMessage) {
    msg.sender.None?
  }

  /** The name shown for a message's sender: the fixed system name for a system
      message, otherwise the sender's entry in the display-name map (absent when the
      map has none). */
  function SenderDisplayName(msg: ChatMessage, displayNames: map<string, string>): (r: Option<string>)
    ensures IsSystemMessage(msg) ==> r == Some(SystemSenderName)
    ensures !IsSystemMessage(msg) ==> (r.Some? <==> msg.sender.value in displayNames)
    ensures msg.sender.Some? && msg.sender.value in displayNames ==> r == Some(displayNames[msg.sender.value])
  {
    match msg.sender
    case None => Some(SystemSenderName)
    case Some(s) => if s in displayNames then Some(displayNames[s]) else None
  }

  /** The message whose header message `i` is read under: the nearest one at or
      before it that shows its sender. */
  function HeaderOf(messages: seq<ChatMessage>, i: nat): (h: nat)
    requires i < |messages|
    ensures h <= i && !SuppressSender(messages, h)
    decreases i
  {
    if SuppressSender(messages, i) then HeaderOf(messages, i - 1) else i
  }

  /** Suppressing headers never misattributes a message: the header it is read under
      names its own sender, and each message from there on came within a minute of
      the one before it. */
  lemma {:induction false} HeaderAttribution(messages: seq<ChatMessage>, i: nat)
    requires i < |messages|
    ensures messages[HeaderOf(messages, i)].sender == messages[i].sender
    ensures forall j :: HeaderOf(messages, i) < j <= i ==>
      messages[j - 1].sender == messages[j].sender && messages[j].timestamp < messages[j - 1].timestamp + SuppressWindow
    decreases i
  {
    if SuppressSender(messages, i) {
      HeaderAttribution(messages, i - 1);
    }
  }

  /** The first message always shows its sender. */
  lemma FirstMessageHeader(messages: seq<ChatMessage>)
    requires |messages| > 0
    ensures HeaderOf(messages, 0) == 0 && !SuppressSender(messages, 0)
  {
  }

  datatype GuessState = Pending | Correct | Incorrect | Rejected

  datatype Guess = Guess(id: string, guess: string, state: GuessState)

  /** The answers shown are the guesses marked correct, in order. */
  function CorrectGuesses(guesses: seq<Guess>): (r: seq<Guess>)
    ensures forall g {:trigger g in r} :: g in r <==> g in guesses && g.state == Correct
    ensures IsSubsequence(r, guesses)
  {
    FilterIsSubsequence(guesses, (g: Guess) => g.state == Correct);
    Filter(guesses, (g: Guess) => g.state == Correct)
  }

  /** A puzzle counts as solved once it has as many answers as it expects. */
  predicate AlreadySolved(p: Puzzle) {
    |p.answers| >= p.expectedAnswerCount
  }

  datatype SubmitState = Idle | Failed

  datatype GuessDialog = GuessDialog(
    guessInput: string,
    directionInput: int,
    confidenceInput: int,
    confirmingSubmit: bool,
    confirmationMessage: string,
    submitState: SubmitState,
    errorMessage: string)

  /** The dialog as first shown. */
  function NewGuessDialog(): GuessDialog {
    GuessDialog("", 0, 50, false, "", Idle, "")
  }

  /** Typing in the guess box: the text is uppercased and any pending confirmation
      is dropped. */
  function OnGuessInputChange(d: GuessDialog, value: string): (r: GuessDialog)
    ensures r.guessInput == Upper(value) && !r.confirmingSubmit
    ensures r == d.(guessInput := r.guessInput, confirmingSubmit := false)
  {
    d.(guessInput := Upper(value), confirmingSubmit := false)
  }

  /** The server call a submission makes: `addGuessForPuzzle(puzzle, guess,
      direction, confidence)`. */
  datatype GuessCall = GuessCall(puzzle: string, guess: string, direction: int, confidence: int)

  /** Some earlier guess has exactly the text in the box. */
  predicate RepeatGuess(guesses: seq<Guess>, guess: string) {
    FindFirst(guesses, (g: Guess) => g.guess == guess).Some?
  }

  const SolvedReason: string := "already been solved"
  const RepeatReason: string := "already been submitted"
  const SolvedOpening: string := "This puzzle"
  const SolvedText: string := SolvedOpening + " has " + SolvedReason + ". "
  const RepeatText: string := "This answer has " + RepeatReason + ". "
  const Question: string := " Are you sure you want to submit this guess?"

  /** The warning shown before a repeated guess or a guess on a solved puzzle: the
      solved-puzzle sentence, a space, the repeated-answer sentence, then the
      question, each sentence only when it applies. */
  function ConfirmationMessage(alreadySolved: bool, repeat: bool): string {
    (if alreadySolved then SolvedText else "") + " " + (if repeat then RepeatText else "") + Question
  }

  /** `onSubmitGuess`: a repeated guess, or any guess on a solved puzzle, first asks
      for confirmation without calling the server; otherwise (or once confirming)
      the guess is sent. */
  function OnSubmitGuess(d: GuessDialog, guesses: seq<Guess>, puzzle: Puzzle): (r: (GuessDialog, Option<GuessCall>))
    ensures r.1.None? <==> (RepeatGuess(guesses, d.guessInput) || AlreadySolved(puzzle)) && !d.confirmingSubmit
    ensures r.1.None? ==> r.0.confirmingSubmit && r.0 == d.(confirmingSubmit := true, confirmationMessage := r.0.confirmationMessage)
    ensures r.1.Some? ==> r.0 == d && r.1.value == GuessCall(puzzle.id, d.guessInput, d.directionInput, d.confidenceInput)
  {
    var repeat := RepeatGuess(guesses, d.guessInput);
    var alreadySolved := AlreadySolved(puzzle);
    if (repeat || alreadySolved) && !d.confirmingSubmit then
      (d.(confirmingSubmit := true, confirmationMessage := ConfirmationMessage(alreadySolved, repeat)), None)
    else
      (d, Some(GuessCall(puzzle.id, d.guessInput, d.directionInput, d.confidenceInput)))
  }

  /** The server's answer: a failure is shown with its message; either way the
      confirmation is cleared. */
  function OnGuessResult(d: GuessDialog, error: Option<string>): (r: GuessDialog)
    ensures !r.confirmingSubmit && r.guessInput == d.guessInput
    ensures error.Some? ==> r.submitState == Failed && r.errorMessage == error.value
    ensures error.None? ==> r.submitState == d.submitState && r.errorMessage == d.errorMessage
    ensures r == d.(confirmingSubmit := false, submitState := r.submitState, errorMessage := r.errorMessage)
  {
    var d1 := if error.Some? then d.(submitState := Failed, errorMessage := error.value) else d;
    d1.(confirmingSubmit := false)
  }

  /** Submitting twice without touching the box sends the guess the second time:
      the first submission asks at most once. */
  lemma ConfirmThenSend(d: GuessDialog, guesses: seq<Guess>, puzzle: Puzzle)
    ensures var (d1, call1) := OnSubmitGuess(d, guesses, puzzle);
      call1.None? ==>
        var (d2, call2) := OnSubmitGuess(d1, guesses, puzzle);
        call2 == Some(GuessCall(puzzle.id, d.guessInput, d.directionInput, d.confidenceInput)) && d2 == d1
  {
  }

  /** Editing the guess re-arms the check: a repeated guess, or a guess on a solved
      puzzle, typed after a confirmation asks again instead of being sent. */
  lemma EditRearmsConfirmation(d: GuessDialog, value: string, guesses: seq<Guess>, puzzle: Puzzle)
    requires RepeatGuess(guesses, Upper(value)) || AlreadySolved(puzzle)
    ensures OnSubmitGuess(OnGuessInputChange(d, value), guesses, puzzle).1.None?
  {
  }

  /** The first submission from a freshly opened dialog, after typing a guess: it
      asks for confirmation exactly when the guess repeats an earlier one or the
      puzzle is solved, and otherwise sends the uppercased guess with the initial
      direction 0 and confidence 50. */
  lemma FirstSubmitFromNewDialog(value: string, guesses: seq<Guess>, puzzle: Puzzle)
    ensures var (d, call) := OnSubmitGuess(OnGuessInputChange(NewGuessDialog(), value), guesses, puzzle);
      && (call.None? <==> RepeatGuess(guesses, Upper(value)) || AlreadySolved(puzzle))
      && (call.None? ==> d.confirmingSubmit && d.submitState == Idle)
      && (call.Some? ==> call.value == GuessCall(puzzle.id, Upper(value), 0, 50))
  {
  }

  /** A piece of a concatenation occurs in it. */
  lemma OccursInMiddle(x: string, y: string, z: string)
    ensures Contains(x + y + z, y)
  {
    ContainsAtOffset(x + y + z, y);
    assert (x + y + z)[|x|..|x| + |y|] == y;
    assert OccursAt(x + y + z, y, |x|);
  }

  /** What occurs in a piece occurs in the whole. */
  lemma OccursWithin(x: string, t: string, z: string, y: string)
    requires Contains(t, y)
    ensures Contains(x + t + z, y)
  {
    ContainsAtOffset(t, y);
    ContainsAtOffset(x + t + z, y);
    var i :| OccursAt(t, y, i);
    assert (x + t + z)[|x| + i..|x| + i + |y|] == t[i..i + |y|];
    assert OccursAt(x + t + z, y, |x| + i);
  }

  /** A string starts with each of its prefixes. */
  lemma StartsWithAppend(x: string, y: string)
    ensures StartsWith(x + y, x)
  {
    assert (x + y)[..|x|] == x;
  }

  /** A prefix stays a prefix when the string grows at the end. */
  lemma StartsWithExtend(s: string, p: string, t: string)
    requires StartsWith(s, p)
    ensures StartsWith(s + t, p)
  {
    assert (s + t)[..|p|] == s[..|p|];
  }

  /** What occurs in a string occurs in any extension of it. */
  lemma ContainsExtend(s: string, y: string, t: string)
    requires Contains(s, y)
    ensures Contains(s + t, y)
  {
    OccursWithin("", s, t, y);
    assert "" + s + t == s + t;
  }

  /** A string whose first character differs from a non-empty prefix's does not
      start with it. */
  lemma FirstCharDiffers(s: string, p: string)
    requires |p| > 0 && |s| > 0 && s[0] != p[0]
    ensures !StartsWith(s, p)
  {
  }

  /** The warning names the solved puzzle when it is solved. */
  lemma ConfirmationNamesSolved(alreadySolved: bool, repeat: bool)
    ensures alreadySolved ==> Contains(ConfirmationMessage(alreadySolved, repeat), SolvedReason)
  {
    if alreadySolved {
      var r1 := if repeat then RepeatText else "";
      OccursInMiddle(SolvedOpening + " has ", SolvedReason, ". ");
      ContainsExtend(SolvedText, SolvedReason, " ");
      ContainsExtend(SolvedText + " ", SolvedReason, r1);
      ContainsExtend(SolvedText + " " + r1, SolvedReason, Question);
    }
  }

  /** The warning opens with the solved-puzzle sentence exactly when the puzzle is
      solved. */
  lemma ConfirmationOpensWithSolved(alreadySolved: bool, repeat: bool)
    ensures StartsWith(ConfirmationMessage(alreadySolved, repeat), SolvedOpening) <==> alreadySolved
  {
    var r1 := if repeat then RepeatText else "";
    if alreadySolved {
      StartsWithAppend(SolvedOpening, " has ");
      StartsWithExtend(SolvedOpening + " has ", SolvedOpening, SolvedReason);
      StartsWithExtend(SolvedOpening + " has " + SolvedReason, SolvedOpening, ". ");
      StartsWithExtend(SolvedText, SolvedOpening, " ");
      StartsWithExtend(SolvedText + " ", SolvedOpening, r1);
      StartsWithExtend(SolvedText + " " + r1, SolvedOpening, Question);
    } else {
      var m := "" + " " + r1 + Question;
      assert m[0] == ' ';
      FirstCharDiffers(m, SolvedOpening);
    }
  }

  /** The warning names the repeated answer when the guess was made before. */
  lemma ConfirmationNamesRepeat(alreadySolved: bool, repeat: bool)
    ensures repeat ==> Contains(ConfirmationMessage(alreadySolved, repeat), RepeatReason)
  {
    if repeat {
      OccursInMiddle("This answer has ", RepeatReason, ". ");
      OccursWithin((if alreadySolved then SolvedText else "") + " ", RepeatText, Question, RepeatReason);
    }
  }
}

=== FILE: puzzle_search.dfy ===
/** The puzzle list's search box, solved filter and orderings: which puzzles the list
    shows for a search string, whether the solved filter is over-constraining, the
    unlock-order view, and how the search string is kept in the page's URL. */
module PuzzleSearch {
  import opened Common
  import opened Seqs
  import opened Text
  import opened HuntData
  import opened Sorting
  import PuzzleForm

  /** One lowercased key against one puzzle: a prefix of a word of the lowercased
      title (split on single spaces), a substring of a lowercased answer, or a
      substring of the lowercased name the tag index gives one of its tags. */
  predicate KeyMatches(index: map<string, string>, p: Puzzle, key: string) {
    || (exists w :: w in Split(Lower(p.title), Space) && StartsWith(w, key))
    || (exists a :: a in p.answers && Contains(Lower(a), key))
    || (exists id :: id in p.tags && id in index && Contains(Lower(index[id]), key))
  }

  /** `compileMatcher(keys)`: every lowercased key matches. */
  function Matcher(tags: seq<Tag>, keys: seq<string>): Puzzle -> bool {
    var index := NameIndex(tags);
    var lowerKeys := LowerAll(keys);
    (p: Puzzle) => forall k :: k in lowerKeys ==> KeyMatches(index, p, k)
  }

  /** `puzzlesMatchingSearchString`: the list itself for the empty string, otherwise
      the puzzles the matcher for the non-empty keys accepts, in list order. */
  function MatchingSearch(tags: seq<Tag>, searchString: string, puzzles: seq<Puzzle>): seq<Puzzle> {
    var keys := Split(searchString, Space);
    if |keys| == 1 && keys[0] == "" then puzzles
    else Filter(puzzles, Matcher(tags, Filter(keys, NonEmptyKey())))
  }

  /** The search keeps exactly the puzzles every lowercased search key matches, in
      list order; the empty string has no keys and keeps everything. */
  lemma SearchMatches(tags: seq<Tag>, searchString: string, puzzles: seq<Puzzle>)
    ensures var r := MatchingSearch(tags, searchString, puzzles);
      && IsSubsequence(r, puzzles)
      && forall p {:trigger p in r} :: p in r <==>
           p in puzzles && forall k {:trigger k in LowerAll(SearchKeys(searchString))} ::
             k in LowerAll(SearchKeys(searchString)) ==> KeyMatches(NameIndex(tags), p, k)
  {
    var keys := Split(searchString, Space);
    var m := Matcher(tags, SearchKeys(searchString));
    if |keys| == 1 && keys[0] == "" {
      assert SearchKeys(searchString) == [] by {
        assert forall k :: k in keys ==> k == "";
      }
      FilterIsSubsequence(puzzles, (p: Puzzle) => true);
      FilterAll(puzzles, (p: Puzzle) => true);
    } else {
      FilterIsSubsequence(puzzles, m);
    }
  }

  /** A search string made of spaces only keeps every puzzle, in order. */
  lemma SearchSpacesOnly(tags: seq<Tag>, searchString: string, puzzles: seq<Puzzle>)
    requires forall i :: 0 <= i < |searchString| ==> searchString[i] == Space
    ensures MatchingSearch(tags, searchString, puzzles) == puzzles
  {
    SplitSeparatorsOnly(searchString, Space);
    var keys := Split(searchString, Space);
    if !(|keys| == 1 && keys[0] == "") {
      assert Filter(keys, NonEmptyKey()) == [] by {
        CountZero(keys, NonEmptyKey());
      }
      FilterAll(puzzles, Matcher(tags, []));
    }
  }

  /** The search ignores the case of the search string: two strings that lower-case
      alike select the same puzzles. */
  lemma SearchCaseInsensitive(tags: seq<Tag>, q1: string, q2: string, puzzles: seq<Puzzle>)
    requires Lower(q1) == Lower(q2)
    ensures MatchingSearch(tags, q1, puzzles) == MatchingSearch(tags, q2, puzzles)
  {
    SplitLower(q1);
    SplitLower(q2);
    LowerAllFilter(Split(q1, Space));
    LowerAllFilter(Split(q2, Space));
    assert LowerAll(Filter(Split(q1, Space), NonEmptyKey())) == LowerAll(Filter(Split(q2, Space), NonEmptyKey()));
    var k1 := Split(q1, Space);
    var k2 := Split(q2, Space);
    if |k1| == 1 && k1[0] == "" {
      SplitJoin(q1, Space);
      assert q1 == "";
    }
    if |k2| == 1 && k2[0] == "" {
      SplitJoin(q2, Space);
      assert q2 == "";
    }
  }

  /** The search ignores the case of the puzzle's title and answers. */
  lemma MatcherCaseInsensitive(tags: seq<Tag>, keys: seq<string>, p1: Puzzle, p2: Puzzle)
    requires Lower(p1.title) == Lower(p2.title) && p1.tags == p2.tags
    requires |p1.answers| == |p2.answers|
    requires forall i :: 0 <= i < |p1.answers| ==> Lower(p1.answers[i]) == Lower(p2.answers[i])
    ensures Matcher(tags, keys)(p1) == Matcher(tags, keys)(p2)
  {
    forall a, key | a in p1.answers && Contains(Lower(a), key)
      ensures exists b :: b in p2.answers && Contains(Lower(b), key)
    {
      var i :| 0 <= i < |p1.answers| && p1.answers[i] == a;
      assert p2.answers[i] in p2.answers;
    }
    forall b, key | b in p2.answers && Contains(Lower(b), key)
      ensures exists a :: a in p1.answers && Contains(Lower(a), key)
    {
      var i :| 0 <= i < |p2.answers| && p2.answers[i] == b;
      assert p1.answers[i] in p1.answers;
    }
  }

  /** `puzzlesMatchingSolvedFilter`: everything when solved puzzles are shown,
      otherwise the puzzles whose solvedness is not `Solved`, in order. */
  function SolvedFilter(showSolved: bool, solvedness: Puzzle -> Solvedness, puzzles: seq<Puzzle>): (r: seq<Puzzle>)
    ensures showSolved ==> r == puzzles
    ensures forall p {:trigger p in r} :: p in r <==> p in puzzles && (showSolved || solvedness(p) != Solved)
    ensures IsSubsequence(r, puzzles)
  {
    if showSolved then
      FilterIsSubsequence(puzzles, (p: Puzzle) => true);
      FilterAll(puzzles, (p: Puzzle) => true);
      puzzles
    else
      FilterIsSubsequence(puzzles, (p: Puzzle) => solvedness(p) != Solved);
      Filter(puzzles, (p: Puzzle) => solvedness(p) != Solved)
  }

  /** What the list shows, and whether the note about solved puzzles appears. */
  datatype Retained = Retained(puzzles: seq<Puzzle>, solvedOverConstrains: bool)

  /** The fallback: when the search matches something but the solved filter leaves
      nothing, show the search matches and say so. */
  function RetainedPuzzles(tags: seq<Tag>, searchString: string, showSolved: bool, solvedness: Puzzle -> Solvedness, all: seq<Puzzle>): Retained {
    var matchingSearch := MatchingSearch(tags, searchString, all);
    var matchingSearchAndSolved := SolvedFilter(showSolved, solvedness, matchingSearch);
    var solvedOverConstrains := |matchingSearch| > 0 && |matchingSearchAndSolved| == 0;
    Retained(if solvedOverConstrains then matchingSearch else matchingSearchAndSolved, solvedOverConstrains)
  }

  /** The fallback fires exactly when solved puzzles are hidden, the search matches
      something and every match is solved; it then shows every match, in order.
      Otherwise the list is exactly the matches that pass the solved filter, in
      order. Either way the list shows something exactly when the search matches
      something. */
  lemma RetainedFacts(tags: seq<Tag>, searchString: string, showSolved: bool, solvedness: Puzzle -> Solvedness, all: seq<Puzzle>)
    ensures var matching := MatchingSearch(tags, searchString, all);
      var r := RetainedPuzzles(tags, searchString, showSolved, solvedness, all);
      && IsSubsequence(r.puzzles, matching)
      && (|r.puzzles| > 0 <==> |matching| > 0)
      && (r.solvedOverConstrains <==>
            && !showSolved && |matching| > 0
            && forall p {:trigger p in matching} :: p in matching ==> solvedness(p) == Solved)
      && (r.solvedOverConstrains ==> r.puzzles == matching)
      && (!r.solvedOverConstrains ==>
            forall p {:trigger p in r.puzzles} :: p in r.puzzles <==> p in matching && (showSolved || solvedness(p) != Solved))
  {
    var matching := MatchingSearch(tags, searchString, all);
    var filtered := SolvedFilter(showSolved, solvedness, matching);
    var r := RetainedPuzzles(tags, searchString, showSolved, solvedness, all);
    if r.solvedOverConstrains {
      FilterIsSubsequence(matching, (p: Puzzle) => true);
      FilterAll(matching, (p: Puzzle) => true);
      forall p | p in matching
        ensures solvedness(p) == Solved
      {
        assert p in filtered <==> solvedness(p) != Solved;
      }
    } else if |matching| > 0 {
      assert filtered[0] in filtered;
    }
  }

  /** The key of `_.sortedBy(puzzles, p => p.createdAt)`. */
  function CreatedAtKey(): Puzzle -> (int, int) {
    (p: Puzzle) => (p.createdAt, 0)
  }

  /** The unlock view: all puzzles sorted by creation time, restricted to those whose
      id is among the retained puzzles' ids. */
  function UnlockOrder(all: seq<Puzzle>, retained: seq<Puzzle>): seq<Puzzle> {
    Filter(SortBy(all, CreatedAtKey()), SharesId(retained))
  }

  /** The puzzle's id is the id of one of `retained`. */
  function SharesId(retained: seq<Puzzle>): Puzzle -> bool {
    var ids := set p | p in retained :: p.id;
    (p: Puzzle) => p.id in ids
  }

  /** The unlock view is ordered by creation time and holds exactly the puzzles that
      share an id with a retained one; puzzles created at the same time keep their
      order in the full list, as the stable sort leaves them. */
  lemma UnlockOrderFacts(all: seq<Puzzle>, retained: seq<Puzzle>)
    ensures var r := UnlockOrder(all, retained);
      && SortedBy(r, CreatedAtKey())
      && (forall p {:trigger p in r} :: p in r <==> p in all && exists q {:trigger q in retained} :: q in retained && q.id == p.id)
      && (forall k :: Filter(r, KeyIs(CreatedAtKey(), k)) == Filter(Filter(all, SharesId(retained)), KeyIs(CreatedAtKey(), k)))
  {
    var sorted := SortBy(all, CreatedAtKey());
    FilterSorted(sorted, SharesId(retained), CreatedAtKey());
    assert forall p :: p in sorted <==> p in multiset(sorted);
    assert forall p :: p in all <==> p in multiset(all);
    forall k
      ensures Filter(UnlockOrder(all, retained), KeyIs(CreatedAtKey(), k))
        == Filter(Filter(all, SharesId(retained)), KeyIs(CreatedAtKey(), k))
    {
      UnlockOrderTies(all, retained, k);
    }
  }

  /** Among puzzles created at the same time, the unlock view keeps the order of the
      full list. */
  lemma UnlockOrderTies(all: seq<Puzzle>, retained: seq<Puzzle>, k: (int, int))
    ensures Filter(UnlockOrder(all, retained), KeyIs(CreatedAtKey(), k))
      == Filter(Filter(all, SharesId(retained)), KeyIs(CreatedAtKey(), k))
  {
    var key := KeyIs(CreatedAtKey(), k);
    var keep := SharesId(retained);
    var both := (p: Puzzle) => keep(p) && key(p);
    var sorted := SortBy(all, CreatedAtKey());
    FilterTwice(sorted, keep, key, both);
    FilterTwice(sorted, key, keep, both);
    SortByStable(all, CreatedAtKey(), k);
    FilterTwice(all, key, keep, both);
    FilterTwice(all, keep, key, both);
  }

  /** A URL's query parameters, in order (`URLSearchParams`). */
  type Params = seq<(string, string)>

  function Named(name: string): ((string, string)) -> bool {
    (p: (string, string)) => p.0 == name
  }

  /** `params.get(name)`: the value of the first pair with that name. */
  function GetParam(ps: Params, name: string): Option<string> {
    var first := FindFirst(ps, Named(name));
    if first.Some? then Some(first.value.1) else None
  }

  /** `params.delete(name)`: drop every pair with that name. */
  function DeleteParam(ps: Params, name: string): Params {
    Filter(ps, Not(Named(name)))
  }

  /** `params.set(name, value)`: give the first pair with that name the new value
      and drop the other pairs with that name, or append a pair if there is none. */
  function SetParam(ps: Params, name: string, value: string): Params {
    if FindFirst(ps, Named(name)).Some? then SetFirst(ps, name, value) else ps + [(name, value)]
  }

  function SetFirst(ps: Params, name: string, value: string): Params
    decreases |ps|
  {
    if |ps| == 0 then []
    else if ps[0].0 == name then [(name, value)] + DeleteParam(ps[1..], name)
    else [ps[0]] + SetFirst(ps[1..], name, value)
  }

  /** `setSearchString`: a non-empty value is stored as `q`, the empty value removes
      `q`. */
  function SetSearchString(ps: Params, value: string): Params {
    if value != "" then SetParam(ps, "q", value) else DeleteParam(ps, "q")
  }

  /** Replacing the first pair with a name keeps the other names' pairs and makes
      the new value the one `get` finds. */
  lemma {:induction false} SetFirstFacts(ps: Params, name: string, value: string)
    requires FindFirst(ps, Named(name)).Some?
    ensures DeleteParam(SetFirst(ps, name, value), name) == DeleteParam(ps, name)
    ensures GetParam(SetFirst(ps, name, value), name) == Some(value)
    decreases |ps|
  {
    var r := SetFirst(ps, name, value);
    if ps[0].0 == name {
      var rest := DeleteParam(ps[1..], name);
      FilterConcat([(name, value)], rest, Not(Named(name)));
      FilterConcat([ps[0]], ps[1..], Not(Named(name)));
      assert [ps[0]] + ps[1..] == ps;
      assert [(name, value)][..0] == [] && [ps[0]][..0] == [];
      FilterTwice(ps[1..], Not(Named(name)), Not(Named(name)), Not(Named(name)));
    } else {
      assert forall x :: x in ps <==> x == ps[0] || x in ps[1..];
      SetFirstFacts(ps[1..], name, value);
      FilterConcat([ps[0]], SetFirst(ps[1..], name, value), Not(Named(name)));
      FilterConcat([ps[0]], ps[1..], Not(Named(name)));
      assert [ps[0]] + ps[1..] == ps;
      assert [ps[0]][..0] == [];
    }
  }

  /** After `setSearchString(v)`, `q` reads back as `v` (absent for the empty
      string) and every other parameter is as it was. */
  lemma SetSearchStringFacts(ps: Params, value: string)
    ensures GetParam(SetSearchString(ps, value), "q") == (if value == "" then None else Some(value))
    ensures DeleteParam(SetSearchString(ps, value), "q") == DeleteParam(ps, "q")
  {
    var r := SetSearchString(ps, value);
    if value == "" {
      FilterTwice(ps, Not(Named("q")), Not(Named("q")), Not(Named("q")));
    } else if FindFirst(ps, Named("q")).Some? {
      SetFirstFacts(ps, "q", value);
    } else {
      FilterAppend(ps, ("q", value), Not(Named("q")));
      assert FindFirst(ps + [("q", value)], Named("q")).Some? by {
        assert ("q", value) in ps + [("q", value)];
      }
      assert forall x :: x in ps + [("q", value)] && Named("q")(x) ==> x == ("q", value);
    }
  }

  /** The `createPuzzle` call `onAdd` makes, with a document type that is always
      present. */
  datatype CreatePuzzle = CreatePuzzle(hunt: string, title: string, url: string, tags: seq<Option<string>>, docType: string)

  /** `onAdd`: a payload without a (truthy) document type is refused with an error;
      any other is passed on to `createPuzzle` unchanged. */
  function OnAdd(payload: PuzzleForm.Payload): (r: Result<CreatePuzzle, string>)
    ensures r.Err? <==> !Truthy(payload.docType)
    ensures r.Err? ==> r.error == "No docType provided"
    ensures r.Ok? ==>
      r.value.hunt == payload.hunt && r.value.title == payload.title && r.value.url == payload.url
      && r.value.tags == payload.tags && Some(r.value.docType) == payload.docType
  {
    if !Truthy(payload.docType) then Err("No docType provided")
    else Ok(CreatePuzzle(payload.hunt, payload.title, payload.url, payload.tags, payload.docType.value))
  }

  /** A new puzzle's dialog, whatever title, url and tags are typed into it, passes
      `onAdd` as a spreadsheet with those values. */
  lemma NewFormAccepted(huntId: string, tags: seq<Tag>, edits: seq<PuzzleForm.Edit>)
    requires PuzzleForm.KeepsDocType(edits)
    ensures var st := PuzzleForm.ApplyEdits(PuzzleForm.InitialState(None, tags), edits);
      var r := OnAdd(PuzzleForm.OnFormSubmit(st, huntId).1);
      r == Ok(CreatePuzzle(huntId, st.title, st.url, st.tags, "spreadsheet"))
  {
    PuzzleForm.ApplyEditsKeeps(PuzzleForm.InitialState(None, tags), edits);
  }

  /** The edit dialog never sends a document type, so `onAdd` would refuse its
      payload: editing goes through a different handler. */
  lemma EditFormHasNoDocType(huntId: string, p: Puzzle, tags: seq<Tag>, edits: seq<PuzzleForm.Edit>)
    requires PuzzleForm.KeepsDocType(edits)
    ensures PuzzleForm.OnFormSubmit(PuzzleForm.ApplyEdits(PuzzleForm.InitialState(Some(p), tags), edits), huntId).1.docType.None?
    ensures OnAdd(PuzzleForm.OnFormSubmit(PuzzleForm.ApplyEdits(PuzzleForm.InitialState(Some(p), tags), edits), huntId).1).Err?
  {
    PuzzleForm.ApplyEditsKeeps(PuzzleForm.InitialState(Some(p), tags), edits);
  }
}

=== FILE: related_sort.dfy ===
/** The order of the puzzles listed under a shared tag: least interesting first, then
    by creation time, with the tag's `group:` suffix passed to the interestingness
    measure. */
module RelatedSort {
  import opened Common
  import opened Text
  import opened HuntData
  import opened Seqs
  import opened Sorting

  const GroupPrefix: string := "group:"

  /** The group a shared tag names: the rest of its name after `group:`, when the
      name starts with it. */
  function GroupOf(sharedTag: Option<Tag>): (r: Option<string>)
    ensures r.Some? <==> sharedTag.Some? && StartsWith(sharedTag.value.name, GroupPrefix)
    ensures r.Some? ==> GroupPrefix + r.value == sharedTag.value.name
  {
    if sharedTag.Some? && StartsWith(sharedTag.value.name, GroupPrefix) then
      var name := sharedTag.value.name;
      assert name == name[..|GroupPrefix|] + name[|GroupPrefix|..];
      Some(name[|GroupPrefix|..])
    else None
  }

  /** The comparator's keys: interestingness (a parameter here, given the group),
      then creation time. */
  function RelevanceKey(interestingness: (Puzzle, Option<string>) -> int, group: Option<string>): Puzzle -> (int, int) {
    (p: Puzzle) => (interestingness(p, group), p.createdAt)
  }

  /** `sortPuzzlesByRelevanceWithinPuzzleGroup`, on a copy of the list: ordered by
      the comparator, and stable, so puzzles with equal interestingness and creation
      time keep their input order. */
  function SortWithinGroup(puzzles: seq<Puzzle>, sharedTag: Option<Tag>, interestingness: (Puzzle, Option<string>) -> int): (r: seq<Puzzle>)
    ensures multiset(r) == multiset(puzzles)
    ensures forall i, j :: 0 <= i < j < |r| ==>
        || interestingness(r[i], GroupOf(sharedTag)) < interestingness(r[j], GroupOf(sharedTag))
        || (interestingness(r[i], GroupOf(sharedTag)) == interestingness(r[j], GroupOf(sharedTag)) && r[i].createdAt <= r[j].createdAt)
    ensures forall k :: Filter(r, KeyIs(RelevanceKey(interestingness, GroupOf(sharedTag)), k))
                        == Filter(puzzles, KeyIs(RelevanceKey(interestingness, GroupOf(sharedTag)), k))
  {
    var key := RelevanceKey(interestingness, GroupOf(sharedTag));
    var r := SortBy(puzzles, key);
    assert SortedBy(r, key);
    assert forall k :: Filter(r, KeyIs(key, k)) == Filter(puzzles, KeyIs(key, k)) by {
      forall k
        ensures Filter(r, KeyIs(key, k)) == Filter(puzzles, KeyIs(key, k))
      {
        SortByStable(puzzles, key, k);
      }
    }
    r
  }

  /** A list already in relevance order is left as it is. */
  lemma SortWithinGroupStable(puzzles: seq<Puzzle>, sharedTag: Option<Tag>, interestingness: (Puzzle, Option<string>) -> int)
    requires SortedBy(puzzles, RelevanceKey(interestingness, GroupOf(sharedTag)))
    ensures SortWithinGroup(puzzles, sharedTag, interestingness) == puzzles
  {
    SortSorted(puzzles, RelevanceKey(interestingness, GroupOf(sharedTag)));
  }
}

=== FILE: seqs.dfy ===
/** Sequence operations the source gets from JavaScript arrays and Mongo cursors:
    `filter`, `find`/`findOne` (first match in natural order) and counting, together
    with the facts about them that the rest of the model relies on. */
module Seqs {
  import opened Common

  /** `Array.prototype.filter`: the elements of `s` satisfying `f`, in their order.
      Defined from the back so that appending a record is one unfolding. */
  function Filter<T(!new)>(s: seq<T>, f: T -> bool): (r: seq<T>)
    ensures |r| <= |s|
    ensures forall x {:trigger x in r} :: x in r <==> x in s && f(x)
    decreases |s|
  {
    if |s| == 0 then []
    else
      var init := Filter(s[..|s| - 1], f);
      assert forall x :: x in s <==> x in s[..|s| - 1] || x == s[|s| - 1];
      if f(s[|s| - 1]) then init + [s[|s| - 1]] else init
  }

  /** `cursor.count()`: how many elements satisfy `f`. */
  function Count<T(!new)>(s: seq<T>, f: T -> bool): nat {
    |Filter(s, f)|
  }

  /** The negation of a predicate. */
  function Not<T>(f: T -> bool): T -> bool {
    x => !f(x)
  }

  /** `findOne` / `Array.prototype.find`: the first element satisfying `f`
      (that it is the first is `FindFirstIsFirst`). */
  function FindFirst<T(!new)>(s: seq<T>, f: T -> bool): (r: Option<T>)
    ensures r.None? <==> forall x {:trigger x in s} :: x in s ==> !f(x)
    ensures r.Some? ==> r.value in s && f(r.value)
    decreases |s|
  {
    if |s| == 0 then None
    else if f(s[0]) then
      assert s[0] in s;
      Some(s[0])
    else
      assert forall x :: x in s <==> x == s[0] || x in s[1..];
      FindFirst(s[1..], f)
  }

  /** The element `FindFirst` returns sits at a position before which nothing
      satisfies `f`. */
  lemma {:induction false} FindFirstIsFirst<T(!new)>(s: seq<T>, f: T -> bool)
    requires FindFirst(s, f).Some?
    ensures exists i :: 0 <= i < |s| && s[i] == FindFirst(s, f).value && forall j :: 0 <= j < i ==> !f(s[j])
    decreases |s|
  {
    if !f(s[0]) {
      FindFirstIsFirst(s[1..], f);
      var i :| 0 <= i < |s[1..]| && s[1..][i] == FindFirst(s, f).value && forall j :: 0 <= j < i ==> !f(s[1..][j]);
      assert s[i + 1] == FindFirst(s, f).value;
      assert forall j :: 0 <= j < i + 1 ==> !f(s[j]) by {
        forall j | 0 <= j < i + 1
          ensures !f(s[j])
        {
          if j > 0 {
            assert s[j] == s[1..][j - 1];
          }
        }
      }
    }
  }

  /** The elements of `s` whose flag in `keep` is set: deleting elements without
      reordering the rest. */
  function Select<T>(s: seq<T>, keep: seq<bool>): seq<T>
    requires |keep| == |s|
    decreases |s|
  {
    if |s| == 0 then []
    else
      var init := Select(s[..|s| - 1], keep[..|s| - 1]);
      if keep[|s| - 1] then init + [s[|s| - 1]] else init
  }

  /** `a` is obtained from `b` by deleting elements and keeping the order of the rest. */
  ghost predicate IsSubsequence<T>(a: seq<T>, b: seq<T>) {
    exists keep: seq<bool> :: |keep| == |b| && Select(b, keep) == a
  }

  /** The flags that `Filter(s, f)` keeps. */
  function Flags<T>(s: seq<T>, f: T -> bool): (keep: seq<bool>)
    ensures |keep| == |s|
  {
    seq(|s|, i requires 0 <= i < |s| => f(s[i]))
  }

  /** Filtering only deletes elements: the result is an order-preserving subsequence. */
  lemma {:induction false} FilterIsSubsequence<T(!new)>(s: seq<T>, f: T -> bool)
    ensures IsSubsequence(Filter(s, f), s)
  {
    FilterIsSelect(s, f);
  }

  lemma {:induction false} FilterIsSelect<T(!new)>(s: seq<T>, f: T -> bool)
    ensures Select(s, Flags(s, f)) == Filter(s, f)
    decreases |s|
  {
    if |s| > 0 {
      var init := s[..|s| - 1];
      FilterIsSelect(init, f);
      assert Flags(s, f)[..|s| - 1] == Flags(init, f);
    }
  }

  lemma {:induction false} FilterAppend<T(!new)>(s: seq<T>, x: T, f: T -> bool)
    ensures Filter(s + [x], f) == Filter(s, f) + (if f(x) then [x] else [])
  {
    assert (s + [x])[..|s|] == s;
  }

  /** Filtering with a predicate every element satisfies is the identity. */
  lemma {:induction false} FilterAll<T(!new)>(s: seq<T>, f: T -> bool)
    requires forall x :: x in s ==> f(x)
    ensures Filter(s, f) == s
    decreases |s|
  {
    if |s| > 0 {
      FilterAll(s[..|s| - 1], f);
      assert s[..|s| - 1] + [s[|s| - 1]] == s;
    }
  }

  /** Nothing satisfies `f` exactly when the count is zero. */
  lemma CountZero<T(!new)>(s: seq<T>, f: T -> bool)
    ensures Count(s, f) == 0 <==> forall x :: x in s ==> !f(x)
  {
    var r := Filter(s, f);
    if |r| > 0 {
      assert r[0] in r;
    } else {
      forall x | x in s
        ensures !f(x)
      {
        assert x in r <==> f(x);
      }
    }
  }

  lemma {:induction false} CountAppend<T(!new)>(s: seq<T>, x: T, f: T -> bool)
    ensures Count(s + [x], f) == Count(s, f) + (if f(x) then 1 else 0)
  {
    FilterAppend(s, x, f);
  }

  /** A weaker predicate counts at least as many elements. */
  lemma {:induction false} CountMonotone<T(!new)>(s: seq<T>, f: T -> bool, g: T -> bool)
    requires forall x :: f(x) ==> g(x)
    ensures Count(s, f) <= Count(s, g)
    decreases |s|
  {
    if |s| > 0 {
      CountMonotone(s[..|s| - 1], f, g);
    }
  }

  /** Filtering by another predicate first never adds matches. */
  lemma {:induction false} CountFilterLe<T(!new)>(s: seq<T>, g: T -> bool, f: T -> bool)
    ensures Count(Filter(s, g), f) <= Count(s, f)
    decreases |s|
  {
    if |s| > 0 {
      var init := s[..|s| - 1];
      var x := s[|s| - 1];
      CountFilterLe(init, g, f);
      if g(x) {
        CountAppend(Filter(init, g), x, f);
      }
    }
  }

  /** When at most one element satisfies `f`, any two that do are the same. */
  lemma AtMostOne<T(!new)>(s: seq<T>, f: T -> bool, a: T, b: T)
    requires Count(s, f) <= 1
    requires a in s && f(a) && b in s && f(b)
    ensures a == b
  {
    var r := Filter(s, f);
    assert a in r && b in r;
  }

  /** Removing (with `g` false) the one element `x` singled out by a key `h` lowers
      the count of any predicate `x` satisfies by exactly one. */
  lemma {:induction false} CountRemoveOne<T(!new)>(s: seq<T>, g: T -> bool, h: T -> bool, f: T -> bool, x: T)
    requires x in s && h(x) && !g(x) && f(x)
    requires Count(s, h) <= 1
    requires forall y :: !g(y) ==> h(y)
    ensures Count(Filter(s, g), f) == Count(s, f) - 1
    decreases |s|
  {
    var init := s[..|s| - 1];
    var y := s[|s| - 1];
    assert s == init + [y];
    CountAppend(init, y, h);
    CountAppend(init, y, f);
    if !g(y) {
      AtMostOne(s, h, x, y);
      assert Count(init, h) == 0;
      CountZero(init, h);
      FilterAll(init, g);
    } else {
      assert x in init;
      CountRemoveOne(init, g, h, f, x);
      CountAppend(Filter(init, g), y, f);
    }
  }

  /** Filtering a concatenation filters each part. */
  lemma {:induction false} FilterConcat<T(!new)>(a: seq<T>, b: seq<T>, f: T -> bool)
    ensures Filter(a + b, f) == Filter(a, f) + Filter(b, f)
    decreases |b|
  {
    if |b| > 0 {
      var init := b[..|b| - 1];
      var y := b[|b| - 1];
      assert b == init + [y];
      assert a + b == (a + init) + [y];
      FilterConcat(a, init, f);
      FilterAppend(a + init, y, f);
      FilterAppend(init, y, f);
    } else {
      assert a + b == a;
    }
  }

  /** Filtering twice is filtering once by the conjunction (read on the elements
      of `s` only). */
  lemma {:induction false} FilterTwice<T(!new)>(s: seq<T>, f: T -> bool, g: T -> bool, h: T -> bool)
    requires forall x :: x in s ==> (h(x) <==> f(x) && g(x))
    ensures Filter(Filter(s, f), g) == Filter(s, h)
    decreases |s|
  {
    if |s| > 0 {
      var init := s[..|s| - 1];
      var y := s[|s| - 1];
      assert forall x :: x in init ==> x in s;
      FilterTwice(init, f, g, h);
      if f(y) {
        FilterAppend(Filter(init, f), y, g);
      }
    }
  }

  /** Predicates that agree on the elements of `s` filter it alike. */
  lemma {:induction false} FilterSame<T(!new)>(s: seq<T>, f: T -> bool, g: T -> bool)
    requires forall x :: x in s ==> (f(x) <==> g(x))
    ensures Filter(s, f) == Filter(s, g)
    decreases |s|
  {
    if |s| > 0 {
      assert forall x :: x in s[..|s| - 1] ==> x in s;
      FilterSame(s[..|s| - 1], f, g);
    }
  }

  /** Two positions satisfying `f` make a count of at least two. */
  lemma {:induction false} CountTwo<T(!new)>(s: seq<T>, f: T -> bool, i: nat, j: nat)
    requires i < j < |s| && f(s[i]) && f(s[j])
    ensures Count(s, f) >= 2
    decreases |s|
  {
    var init := s[..|s| - 1];
    if j == |s| - 1 {
      assert s[i] in init;
      CountZero(init, f);
    } else {
      CountTwo(init, f, i, j);
    }
  }
}

=== FILE: sorting.dfy ===
/** The stable sort the puzzle lists use (`Array.prototype.sort`, `_.sortBy`), for a
    comparator that compares a primary integer key and then a secondary one. */
module Sorting {
  import opened Seqs

  /** Keys compared lexicographically: the comparator returns `a.0 - b.0` when the
      primary keys differ and `a.1 - b.1` otherwise. */
  predicate KeyLe(a: (int, int), b: (int, int)) {
    a.0 < b.0 || (a.0 == b.0 && a.1 <= b.1)
  }

  predicate KeyLt(a: (int, int), b: (int, int)) {
    KeyLe(a, b) && a != b
  }

  ghost predicate SortedBy<T>(s: seq<T>, key: T -> (int, int)) {
    forall i, j :: 0 <= i < j < |s| ==> KeyLe(key(s[i]), key(s[j]))
  }

  /** Place `x` after every element whose key is not greater than its own. */
  function Insert<T>(x: T, s: seq<T>, key: T -> (int, int)): (r: seq<T>)
    ensures multiset(r) == multiset(s) + multiset{x}
    ensures |r| == |s| + 1
    decreases |s|
  {
    if |s| == 0 then [x]
    else if KeyLt(key(x), key(s[0])) then [x] + s
    else
      assert s == [s[0]] + s[1..];
      [s[0]] + Insert(x, s[1..], key)
  }

  /** Inserting into a sorted sequence keeps it sorted. */
  lemma {:induction false} InsertSorted<T>(x: T, s: seq<T>, key: T -> (int, int))
    requires SortedBy(s, key)
    ensures SortedBy(Insert(x, s, key), key)
    decreases |s|
  {
    if |s| > 0 && !KeyLt(key(x), key(s[0])) {
      var rest := Insert(x, s[1..], key);
      InsertSorted(x, s[1..], key);
      forall j | 0 <= j < |rest|
        ensures KeyLe(key(s[0]), key(rest[j]))
      {
        assert rest[j] in multiset(rest);
        if rest[j] != x {
          assert rest[j] in multiset(s[1..]);
          var k :| 0 <= k < |s[1..]| && s[1..][k] == rest[j];
          assert s[k + 1] == rest[j];
        }
      }
    }
  }

  /** Insertion sort, taking the elements in their input order. */
  function SortBy<T>(s: seq<T>, key: T -> (int, int)): (r: seq<T>)
    ensures multiset(r) == multiset(s)
    ensures SortedBy(r, key)
    decreases |s|
  {
    if |s| == 0 then []
    else
      assert s == s[..|s| - 1] + [s[|s| - 1]];
      InsertSorted(s[|s| - 1], SortBy(s[..|s| - 1], key), key);
      Insert(s[|s| - 1], SortBy(s[..|s| - 1], key), key)
  }

  /** An element no smaller than everything before it is appended. */
  lemma {:induction false} InsertLast<T>(x: T, s: seq<T>, key: T -> (int, int))
    requires SortedBy(s, key)
    requires forall y :: y in s ==> KeyLe(key(y), key(x))
    ensures Insert(x, s, key) == s + [x]
    decreases |s|
  {
    if |s| > 0 {
      assert s[0] in s;
      assert !KeyLt(key(x), key(s[0]));
      SortedTail(s, key);
      forall y | y in s[1..]
        ensures KeyLe(key(y), key(x))
      {
        assert y in s;
      }
      InsertLast(x, s[1..], key);
      assert Insert(x, s, key) == [s[0]] + Insert(x, s[1..], key);
      assert s == [s[0]] + s[1..];
    }
  }

  /** In a sorted sequence the last element is no smaller than the ones before it,
      which are sorted themselves. */
  lemma SortedInit<T>(s: seq<T>, key: T -> (int, int))
    requires SortedBy(s, key) && |s| > 0
    ensures SortedBy(s[..|s| - 1], key)
    ensures forall y :: y in s[..|s| - 1] ==> KeyLe(key(y), key(s[|s| - 1]))
  {
    forall y | y in s[..|s| - 1]
      ensures KeyLe(key(y), key(s[|s| - 1]))
    {
      var k :| 0 <= k < |s| - 1 && s[..|s| - 1][k] == y;
      assert s[k] == y;
    }
  }

  /** Sorting an already sorted sequence changes nothing: equal keys keep their
      order. */
  lemma {:induction false} SortSorted<T>(s: seq<T>, key: T -> (int, int))
    requires SortedBy(s, key)
    ensures SortBy(s, key) == s
    decreases |s|
  {
    if |s| > 0 {
      var init := s[..|s| - 1];
      var x := s[|s| - 1];
      SortedInit(s, key);
      SortSorted(init, key);
      InsertLast(x, init, key);
      assert init + [x] == s;
    }
  }

  /** The elements whose key is `k`. */
  function KeyIs<T>(key: T -> (int, int), k: (int, int)): T -> bool {
    (x: T) => key(x) == k
  }

  /** The tail of a sorted sequence is sorted. */
  lemma SortedTail<T>(s: seq<T>, key: T -> (int, int))
    requires SortedBy(s, key) && |s| > 0
    ensures SortedBy(s[1..], key)
  {
    forall i, j | 0 <= i < j < |s[1..]|
      ensures KeyLe(key(s[1..][i]), key(s[1..][j]))
    {
      assert s[1..][i] == s[i + 1] && s[1..][j] == s[j + 1];
    }
  }

  /** Inserting into a sorted sequence puts `x` after every element with the same
      key, and leaves the order of the others alone. */
  lemma {:induction false} InsertStable<T(!new)>(x: T, s: seq<T>, key: T -> (int, int), k: (int, int))
    requires SortedBy(s, key)
    ensures Filter(Insert(x, s, key), KeyIs(key, k)) == Filter(s, KeyIs(key, k)) + (if key(x) == k then [x] else [])
    decreases |s|
  {
    var f := KeyIs(key, k);
    if |s| == 0 {
      assert Insert(x, s, key) == s + [x];
      FilterAppend(s, x, f);
    } else if KeyLt(key(x), key(s[0])) {
      FilterConcat([x], s, f);
      FilterAppend([], x, f);
      assert [] + [x] == [x];
      if key(x) == k {
        forall y | y in s
          ensures !f(y)
        {
          var j :| 0 <= j < |s| && s[j] == y;
          if j > 0 {
            assert KeyLe(key(s[0]), key(s[j]));
          }
        }
        CountZero(s, f);
      }
    } else {
      SortedTail(s, key);
      InsertStable(x, s[1..], key, k);
      FilterConcat([s[0]], Insert(x, s[1..], key), f);
      FilterConcat([s[0]], s[1..], f);
      assert [s[0]] + s[1..] == s;
    }
  }

  /** One step of the sort keeps the elements of each key in input order. */
  lemma InsertStableStep<T(!new)>(x: T, init: seq<T>, sorted: seq<T>, key: T -> (int, int), k: (int, int))
    requires SortedBy(sorted, key)
    requires Filter(sorted, KeyIs(key, k)) == Filter(init, KeyIs(key, k))
    ensures Filter(Insert(x, sorted, key), KeyIs(key, k)) == Filter(init + [x], KeyIs(key, k))
  {
    InsertStable(x, sorted, key, k);
    FilterAppend(init, x, KeyIs(key, k));
  }

  /** The sort is stable: the elements with any one key come out in their input
      order. */
  lemma {:induction false} SortByStable<T(!new)>(s: seq<T>, key: T -> (int, int), k: (int, int))
    ensures Filter(SortBy(s, key), KeyIs(key, k)) == Filter(s, KeyIs(key, k))
    decreases |s|
  {
    if |s| > 0 {
      var init := s[..|s| - 1];
      var x := s[|s| - 1];
      var sorted := SortBy(init, key);
      assert SortBy(s, key) == Insert(x, sorted, key);
      assert s == init + [x];
      SortByStable(init, key, k);
      InsertStableStep(x, init, sorted, key, k);
    }
  }

  /** Filtering keeps a sorted sequence sorted. */
  lemma {:induction false} FilterSorted<T(!new)>(s: seq<T>, f: T -> bool, key: T -> (int, int))
    requires SortedBy(s, key)
    ensures SortedBy(Filter(s, f), key)
    decreases |s|
  {
    if |s| > 0 {
      var init := s[..|s| - 1];
      var x := s[|s| - 1];
      FilterSorted(init, f, key);
      if f(x) {
        var r := Filter(s, f);
        assert r == Filter(init, f) + [x];
        forall i | 0 <= i < |r| - 1
          ensures KeyLe(key(r[i]), key(x))
        {
          assert r[i] in Filter(init, f);
          var k :| 0 <= k < |init| && init[k] == r[i];
          assert s[k] == r[i];
        }
      }
    }
  }
}

=== FILE: text.dfy ===
/** The JavaScript string operations the search, chat and form code uses:
    `toLowerCase`, `toUpperCase`, `split(' ')`, `startsWith` and `includes`.
    Case mapping covers the ASCII letters only. */
module Text {
  import opened Common
  import opened Seqs

  const Space: char := ' '

  function LowerChar(c: char): char {
    if 'A' <= c <= 'Z' then (c as int + 32) as char else c
  }

  function UpperChar(c: char): char {
    if 'a' <= c <= 'z' then (c as int - 32) as char else c
  }

  /** `s.toLowerCase()` */
  function Lower(s: string): (r: string)
    ensures |r| == |s|
  {
    seq(|s|, i requires 0 <= i < |s| => LowerChar(s[i]))
  }

  /** `s.toUpperCase()` */
  function Upper(s: string): (r: string)
    ensures |r| == |s|
  {
    seq(|s|, i requires 0 <= i < |s| => UpperChar(s[i]))
  }

  /** `keys.map((k) => k.toLowerCase())` */
  function LowerAll(keys: seq<string>): (r: seq<string>)
    ensures |r| == |keys|
  {
    seq(|keys|, i requires 0 <= i < |keys| => Lower(keys[i]))
  }

  /** `s.startsWith(prefix)` */
  predicate StartsWith(s: string, prefix: string) {
    |prefix| <= |s| && s[..|prefix|] == prefix
  }

  /** `s.includes(sub)`, equivalently `s.indexOf(sub) !== -1`. */
  predicate Contains(s: string, sub: string)
    decreases |s|
  {
    StartsWith(s, sub) || (|s| > 0 && Contains(s[1..], sub))
  }

  /** `sub` occurs in `s` starting at offset `i`. */
  predicate OccursAt(s: string, sub: string, i: int) {
    0 <= i <= |s| - |sub| && s[i..i + |sub|] == sub
  }

  /** `Contains` holds exactly when `sub` occurs at some offset of `s`. */
  lemma {:induction false} ContainsAtOffset(s: string, sub: string)
    ensures Contains(s, sub) <==> exists i :: OccursAt(s, sub, i)
    decreases |s|
  {
    if |s| > 0 {
      ContainsAtOffset(s[1..], sub);
      if StartsWith(s, sub) {
        assert OccursAt(s, sub, 0);
      } else if Contains(s[1..], sub) {
        var i :| OccursAt(s[1..], sub, i);
        assert s[i + 1..i + 1 + |sub|] == s[1..][i..i + |sub|];
        assert OccursAt(s, sub, i + 1);
      }
      if exists i :: OccursAt(s, sub, i) {
        var i :| OccursAt(s, sub, i);
        if i > 0 {
          assert s[1..][i - 1..i - 1 + |sub|] == s[i..i + |sub|];
          assert OccursAt(s[1..], sub, i - 1);
        }
      }
    } else {
      if exists i :: OccursAt(s, sub, i) {
        assert |sub| == 0 && s[..0] == sub;
        assert StartsWith(s, sub);
      }
      if Contains(s, sub) {
        assert OccursAt(s, sub, 0);
      }
    }
  }

  /** `s.split(sep)`: the pieces between occurrences of `sep`, keeping empty
      pieces, so that `n` separators give `n + 1` pieces. */
  function Split(s: string, sep: char): (r: seq<string>)
    ensures |r| >= 1
    decreases |s|
  {
    if |s| == 0 then [""]
    else
      var rest := Split(s[1..], sep);
      if s[0] == sep then [""] + rest
      else [[s[0]] + rest[0]] + rest[1..]
  }

  /** `parts.join(sep)` */
  function JoinWith(parts: seq<string>, sep: char): string
    decreases |parts|
  {
    if |parts| == 0 then ""
    else if |parts| == 1 then parts[0]
    else parts[0] + [sep] + JoinWith(parts[1..], sep)
  }

  /** Splitting loses nothing: joining the pieces back gives the original string. */
  lemma {:induction false} SplitJoin(s: string, sep: char)
    ensures JoinWith(Split(s, sep), sep) == s
    decreases |s|
  {
    if |s| > 0 {
      var rest := Split(s[1..], sep);
      SplitJoin(s[1..], sep);
      if s[0] == sep {
        assert ([""] + rest)[1..] == rest;
      } else {
        var r := [[s[0]] + rest[0]] + rest[1..];
        assert r[1..] == rest[1..];
        if |rest| > 1 {
          assert rest == [rest[0]] + rest[1..];
        }
      }
    }
  }

  /** No piece contains the separator. */
  lemma {:induction false} SplitPiecesFree(s: string, sep: char)
    ensures forall p :: p in Split(s, sep) ==> sep !in p
    decreases |s|
  {
    if |s| > 0 {
      SplitPiecesFree(s[1..], sep);
      var rest := Split(s[1..], sep);
      assert rest[0] in rest;
      assert forall p :: p in rest[1..] ==> p in rest;
    }
  }

  /** Lower-casing does not move spaces, so it commutes with `split(' ')`. */
  lemma {:induction false} SplitLower(s: string)
    ensures Split(Lower(s), Space) == LowerAll(Split(s, Space))
    decreases |s|
  {
    if |s| > 0 {
      SplitLower(s[1..]);
      assert Lower(s)[1..] == Lower(s[1..]);
      var rest := Split(s[1..], Space);
      if s[0] != Space {
        assert Lower([s[0]] + rest[0]) == [LowerChar(s[0])] + Lower(rest[0]);
      }
    }
  }

  /** Lower-casing twice is lower-casing once. */
  lemma LowerIdempotent(s: string)
    ensures Lower(Lower(s)) == Lower(s)
  {
  }

  /** JavaScript truthiness of an optional string: present and non-empty. */
  predicate Truthy(s: Option<string>) {
    s.Some? && s.value != ""
  }

  /** `key.length > 0` */
  function NonEmptyKey(): string -> bool {
    (k: string) => |k| > 0
  }

  /** The search keys: the string split on single spaces, empty pieces dropped. */
  function SearchKeys(searchString: string): seq<string> {
    Filter(Split(searchString, Space), NonEmptyKey())
  }

  /** Lowering the keys and dropping the empty ones commute. */
  lemma {:induction false} LowerAllFilter(keys: seq<string>)
    ensures LowerAll(Filter(keys, NonEmptyKey())) == Filter(LowerAll(keys), NonEmptyKey())
    decreases |keys|
  {
    if |keys| > 0 {
      var init := keys[..|keys| - 1];
      var k := keys[|keys| - 1];
      LowerAllFilter(init);
      assert LowerAll(keys)[..|keys| - 1] == LowerAll(init);
      if |k| > 0 {
        assert LowerAll(Filter(init, NonEmptyKey()) + [k]) == LowerAll(Filter(init, NonEmptyKey())) + [Lower(k)];
      }
    }
  }

  /** Splitting a string of separators only gives empty pieces. */
  lemma {:induction false} SplitSeparatorsOnly(s: string, sep: char)
    requires forall i :: 0 <= i < |s| ==> s[i] == sep
    ensures forall piece :: piece in Split(s, sep) ==> piece == ""
    decreases |s|
  {
    if |s| > 0 {
      SplitSeparatorsOnly(s[1..], sep);
    }
  }
}

=== FILE: users.dfy ===
/** User records and the `User` schema they are checked against. Validators the
    schema borrows from elsewhere (non-empty strings, id strings, e-mail format,
    the Discord account shape) are parameters. Dates are integer milliseconds. */
module UserModel {
  import opened Common
  import opened Seqs
  import Discord

  datatype Email = Email(address: string, verified: bool)

  /** The profile sub-document older records carry; every field may be absent. */
  datatype LegacyProfile = LegacyProfile(
    displayName: Option<string>,
    googleAccount: Option<string>,
    discordAccount: Option<Discord.DiscordAccount>,
    phoneNumber: Option<string>,
    muteApplause: Option<bool>,
    dingwords: Option<seq<string>>)

  /** A user document. Only `id` is always present. */
  datatype User = User(
    id: string,
    username: Option<string>,
    emails: Option<seq<Email>>,
    createdAt: Option<int>,
    lastLogin: Option<int>,
    profile: Option<LegacyProfile>,
    roles: Option<map<string, seq<string>>>,
    hunts: Option<seq<string>>,
    displayName: Option<string>,
    googleAccount: Option<string>,
    googleAccountId: Option<string>,
    discordAccount: Option<Discord.DiscordAccount>,
    phoneNumber: Option<string>,
    muteApplause: Option<bool>,
    dingwords: Option<seq<string>>)

  /** The checks the schema takes from other modules: `stringId` (`isId`),
      `foreignKey` (`isForeignKey`), `nonEmptyString`, `z.string().email()` and
      `DiscordAccount`. */
  datatype Validators = Validators(
    isId: string -> bool,
    isForeignKey: string -> bool,
    nonEmpty: string -> bool,
    isEmail: string -> bool,
    discordAccount: Discord.DiscordAccount -> bool)

  /** A character `[a-z0-9A-Z_]` accepts. */
  predicate UsernameChar(c: char) {
    ('a' <= c <= 'z') || ('A' <= c <= 'Z') || ('0' <= c <= '9') || c == '_'
  }

  /** `^[a-z0-9A-Z_]{3,15}$` */
  predicate ValidUsername(s: string) {
    3 <= |s| <= 15 && forall i :: 0 <= i < |s| ==> UsernameChar(s[i])
  }

  /** The username pattern run over the string: bail out on a length outside 3..15,
      then on the first character outside the class. */
  method MatchUsername(s: string) returns (ok: bool)
    ensures ok <==> ValidUsername(s)
  {
    if |s| < 3 || |s| > 15 {
      return false;
    }
    var i := 0;
    while i < |s|
      invariant 0 <= i <= |s|
      invariant forall j :: 0 <= j < i ==> UsernameChar(s[j])
    {
      if !UsernameChar(s[i]) {
        return false;
      }
      i := i + 1;
    }
    return true;
  }

  /** An optional string that, when present, passes `check`. */
  predicate OptionalOk(s: Option<string>, check: string -> bool) {
    s.None? || check(s.value)
  }

  /** An optional array whose elements, when present, all pass `check`. */
  predicate OptionalAllOk(s: Option<seq<string>>, check: string -> bool) {
    s.None? || forall x :: x in s.value ==> check(x)
  }

  /** The fields of the schema. */
  datatype Field =
    | IdField | UsernameField | EmailsField | RolesField | HuntsField | DisplayNameField
    | GoogleAccountField | GoogleAccountIdField | DiscordAccountField | PhoneNumberField | DingwordsField

  const AllFields: seq<Field> := [
    IdField, UsernameField, EmailsField, RolesField, HuntsField, DisplayNameField,
    GoogleAccountField, GoogleAccountIdField, DiscordAccountField, PhoneNumberField, DingwordsField]

  lemma AllFieldsListed()
    ensures forall f: Field :: f in AllFields
  {
    forall f: Field
      ensures f in AllFields
    {
      match f
      case IdField => assert AllFields[0] == f;
      case UsernameField => assert AllFields[1] == f;
      case EmailsField => assert AllFields[2] == f;
      case RolesField => assert AllFields[3] == f;
      case HuntsField => assert AllFields[4] == f;
      case DisplayNameField => assert AllFields[5] == f;
      case GoogleAccountField => assert AllFields[6] == f;
      case GoogleAccountIdField => assert AllFields[7] == f;
      case DiscordAccountField => assert AllFields[8] == f;
      case PhoneNumberField => assert AllFields[9] == f;
      case DingwordsField => assert AllFields[10] == f;
    }
  }

  /** One field's rule. `createdAt`, `lastLogin`, `services` and `profile` accept any
      value of their type and have no rule. */
  predicate FieldOk(u: User, v: Validators, f: Field) {
    match f
    case IdField => v.isId(u.id)
    case UsernameField => u.username.None? || ValidUsername(u.username.value)
    case EmailsField => u.emails.None? || forall e :: e in u.emails.value ==> v.isEmail(e.address)
    case RolesField => u.roles.None? || forall scope :: scope in u.roles.value ==> forall r :: r in u.roles.value[scope] ==> v.nonEmpty(r)
    case HuntsField => OptionalAllOk(u.hunts, v.isForeignKey)
    case DisplayNameField => OptionalOk(u.displayName, v.nonEmpty)
    case GoogleAccountField => OptionalOk(u.googleAccount, v.nonEmpty)
    case GoogleAccountIdField => OptionalOk(u.googleAccountId, v.nonEmpty)
    case DiscordAccountField => u.discordAccount.None? || v.discordAccount(u.discordAccount.value)
    case PhoneNumberField => OptionalOk(u.phoneNumber, v.nonEmpty)
    case DingwordsField => OptionalAllOk(u.dingwords, v.nonEmpty)
  }

  /** The `User` schema: every field passes its rule. */
  predicate ValidUser(u: User, v: Validators) {
    forall f: Field :: FieldOk(u, v, f)
  }

  /** The fields validation reports, in schema order. */
  function Issues(u: User, v: Validators): (r: seq<Field>)
    ensures forall f {:trigger f in r} :: f in r <==> !FieldOk(u, v, f)
  {
    AllFieldsListed();
    Filter(AllFields, (f: Field) => !FieldOk(u, v, f))
  }

  /** A user passes the schema exactly when validation reports nothing. */
  lemma IssuesEmpty(u: User, v: Validators)
    ensures Issues(u, v) == [] <==> ValidUser(u, v)
  {
    if Issues(u, v) != [] {
      assert Issues(u, v)[0] in Issues(u, v);
    }
    if !ValidUser(u, v) {
      var f :| !FieldOk(u, v, f);
      assert f in Issues(u, v);
    }
  }

  /** A user with only an id is valid when the id is. */
  lemma OnlyIdRequired(id: string, v: Validators)
    requires v.isId(id)
    ensures ValidUser(User(id, None, None, None, None, None, None, None, None, None, None, None, None, None, None), v)
  {
  }
}

=== FILE: users_resource.dfy ===
/** The `GET /users/:email` REST resource: find a user by Google account or account
    e-mail, and render it with an "active in the last year" flag. The clock is a
    parameter (`now`, in milliseconds). */
module UsersResource {
  import opened Common
  import opened Seqs
  import opened UserModel

  /** The part of a profile document the lookup uses; a profile shares its user's
      id. */
  datatype ProfileDoc = ProfileDoc(id: string, googleAccount: Option<string>)

  datatype Db = Db(users: seq<User>, profiles: seq<ProfileDoc>)

  function ProfileGoogleIs(email: string): ProfileDoc -> bool {
    (p: ProfileDoc) => p.googleAccount == Some(email)
  }

  function ProfileIdIs(id: string): ProfileDoc -> bool {
    (p: ProfileDoc) => p.id == id
  }

  function UserIdIs(id: string): User -> bool {
    (u: User) => u.id == id
  }

  /** The user has an e-mail entry with exactly this address. */
  predicate HasEmail(u: User, email: string) {
    u.emails.Some? && exists e :: e in u.emails.value && e.address == email
  }

  function UserEmailIs(email: string): User -> bool {
    (u: User) => HasEmail(u, email)
  }

  /** The lookup's answer: a user and a profile, either possibly missing. */
  datatype Lookup = Lookup(user: Option<User>, profile: Option<ProfileDoc>)

  /** `findUserByGoogleEmail`: a profile whose Google account is the address wins,
      together with the user of the same id (which may be missing); otherwise the
      first user with that e-mail address and its profile; otherwise nothing. */
  function FindUserByGoogleEmail(db: Db, email: string): (r: Lookup)
    ensures FindFirst(db.profiles, ProfileGoogleIs(email)).Some? ==>
      r.profile == FindFirst(db.profiles, ProfileGoogleIs(email))
      && r.user == FindFirst(db.users, UserIdIs(r.profile.value.id))
    ensures FindFirst(db.profiles, ProfileGoogleIs(email)).None? ==>
      r.user == FindFirst(db.users, UserEmailIs(email))
      && (r.user.None? ==> r.profile.None?)
      && (r.user.Some? ==> r.profile == FindFirst(db.profiles, ProfileIdIs(r.user.value.id)))
    ensures r.user.Some? && r.profile.Some? ==> r.user.value.id == r.profile.value.id
  {
    match FindFirst(db.profiles, ProfileGoogleIs(email))
    case Some(profile) => Lookup(FindFirst(db.users, UserIdIs(profile.id)), Some(profile))
    case None =>
      match FindFirst(db.users, UserEmailIs(email))
      case None => Lookup(None, None)
      case Some(user) => Lookup(Some(user), FindFirst(db.profiles, ProfileIdIs(user.id)))
  }

  /** You are active if you have logged in within the last year. */
  const ActiveThreshold: int := 365 * 24 * 60 * 60 * 1000

  /** What the resource returns for a user. `active` is absent when the user has never
      logged in (`undefined && …`). */
  datatype Rendered = Rendered(id: string, primaryEmail: string, googleAccount: Option<string>, active: Option<bool>)

  /** `renderUser` dereferences the first e-mail and the profile without checking
      them: either one missing throws. */
  datatype RenderError = NoEmails | NoProfile

  function RenderUser(user: User, profile: Option<ProfileDoc>, now: int): (r: Result<Rendered, RenderError>)
    ensures r.Err? <==> user.emails.None? || |user.emails.value| == 0 || profile.None?
    ensures r.Ok? ==>
      r.value.id == user.id && r.value.primaryEmail == user.emails.value[0].address
      && r.value.googleAccount == profile.value.googleAccount
      && (r.value.active.Some? <==> user.lastLogin.Some?)
      && (r.value.active == Some(true) <==> user.lastLogin.Some? && now - user.lastLogin.value < ActiveThreshold)
  {
    if user.emails.None? || |user.emails.value| == 0 then Err(NoEmails)
    else if profile.None? then Err(NoProfile)
    else
      var active := if user.lastLogin.Some? then Some(now - user.lastLogin.value < ActiveThreshold) else None;
      Ok(Rendered(user.id, user.emails.value[0].address, profile.value.googleAccount, active))
  }

  /** The HTTP answer: 404 for no user, the rendered user, or a 500 when rendering
      throws. */
  datatype Response = NotFound | Json(body: Rendered) | ServerError

  function StatusOf(r: Response): int {
    match r
    case NotFound => 404
    case Json(_) => 200
    case ServerError => 500
  }

  /** The 404 for a missing user, otherwise the rendered user; a user that cannot be
      rendered is a 500. The `active` flag is absent exactly when the found user has
      never logged in, and true exactly when the last login is less than a year
      before `now`. */
  function GetUser(db: Db, email: string, now: int): (r: Response)
    ensures StatusOf(r) == 404 <==> FindUserByGoogleEmail(db, email).user.None?
    ensures r.Json? ==>
      var found := FindUserByGoogleEmail(db, email);
      found.user.Some? && RenderUser(found.user.value, found.profile, now) == Ok(r.body)
    ensures var found := FindUserByGoogleEmail(db, email);
      found.user.Some? && RenderUser(found.user.value, found.profile, now).Ok? ==>
        r == Json(RenderUser(found.user.value, found.profile, now).value)
    ensures var found := FindUserByGoogleEmail(db, email);
      found.user.Some? && RenderUser(found.user.value, found.profile, now).Err? ==> r == ServerError
    ensures r.Json? ==>
      var user := FindUserByGoogleEmail(db, email).user.value;
      && (r.body.active.Some? <==> user.lastLogin.Some?)
      && (r.body.active == Some(true) <==> user.lastLogin.Some? && now - user.lastLogin.value < ActiveThreshold)
  {
    var found := FindUserByGoogleEmail(db, email);
    match found.user
    case None => NotFound
    case Some(user) =>
      match RenderUser(user, found.profile, now)
      case Ok(body) => Json(body)
      case Err(_) => ServerError
  }

  /** When a profile claims the address as its Google account, the users' own e-mail
      addresses play no part in the answer. */
  lemma GoogleAccountWins(db: Db, db': Db, email: string)
    requires db.profiles == db'.profiles
    requires |db.users| == |db'.users|
    requires forall i :: 0 <= i < |db.users| ==> db'.users[i] == db.users[i].(emails := db'.users[i].emails)
    requires FindFirst(db.profiles, ProfileGoogleIs(email)).Some?
    ensures FindUserByGoogleEmail(db', email).profile == FindUserByGoogleEmail(db, email).profile
    ensures FindUserByGoogleEmail(db', email).user.Some? <==> FindUserByGoogleEmail(db, email).user.Some?
    ensures FindUserByGoogleEmail(db, email).user.Some? ==>
      FindUserByGoogleEmail(db', email).user.value
        == FindUserByGoogleEmail(db, email).user.value.(emails := FindUserByGoogleEmail(db', email).user.value.emails)
  {
    var id := FindFirst(db.profiles, ProfileGoogleIs(email)).value.id;
    FindFirstSameId(db.users, db'.users, id);
  }

  /** Two user lists that differ only in e-mail addresses find the same user for an
      id. */
  lemma {:induction false} FindFirstSameId(us: seq<User>, us': seq<User>, id: string)
    requires |us| == |us'|
    requires forall i :: 0 <= i < |us| ==> us'[i] == us[i].(emails := us'[i].emails)
    ensures FindFirst(us, UserIdIs(id)).Some? <==> FindFirst(us', UserIdIs(id)).Some?
    ensures FindFirst(us, UserIdIs(id)).Some? ==>
      FindFirst(us', UserIdIs(id)).value == FindFirst(us, UserIdIs(id)).value.(emails := FindFirst(us', UserIdIs(id)).value.emails)
    decreases |us|
  {
    if |us| > 0 && us[0].id != id {
      FindFirstSameId(us[1..], us'[1..], id);
    }
  }
}
